=== FILE: README.md ===
# Appointment slots of a clinic scheduler, modelled in Dafny

This project models the appointment-slot engine of a small clinic
management system: which start times a doctor can be booked at on a date
at a clinic, and the request handlers that read and change bookings.

- **Templates.** A weekly (or every-n-weeks) *recurring schedule* and a
  one-off *occasional schedule* each cut a time range into slots of a fixed
  length. Both are turned into a map from start time to slot length. Later
  templates overwrite earlier ones at the same start: recurring templates
  come first, then one-off ones.
- **Closures.** A *closed window* removes slots. A full-day closure empties
  the day. A partial closure removes every slot that overlaps it. A slot
  that only touches the closure's edge stays.
- **Bookings.** An active *encounter* (any status but cancelled) takes the
  slot whose start time equals its own.
- **Results.** `get_available_slots` returns the free starts in ascending
  order. `get_all_slots` returns every start, marked available or booked
  with the encounter and patient.
- **Handlers.**
  - The four status actions: arrive, start, complete, cancel.
  - The booking page: snapping the requested week to its Monday, refusing
    past or unavailable slots, and the grid of slots per doctor and day.
  - The staff dashboard's four status columns.

Representation:

- Dates are proleptic Gregorian ordinals, with 0001-01-01 as day 1, the
  numbering Python's `date.toordinal` uses. `Calendar.Ordinal` turns a
  year, month and day into one; `Calendar.Weekday` numbers Monday 0.
  `Calendar.InCalendar` is the range Python's `date` can hold, 0001-01-01
  to 9999-12-31; date arithmetic leaving it raises `OverflowError`. A
  parsed `?week=` and today are `date` objects, so they always lie in it.
- Times of day are minutes since midnight. The current time is floored to
  the minute. Slot starts are whole minutes, so `t > now` and `t <= now`
  come out the same as with the exact time.
- A database table is a sequence holding its rows in the order the store
  returns them. The filters the queries apply are predicates in the model:
  `RecurringSelected`, `OccasionalSelected`, `ClosedSelected` and `Occupies`.

Structure:

- Pure functions are the specification: `SlotStarts`, `Candidates`,
  `ApplyClosures`, `AvailableSlots`, `AllSlots`, `StatusChange` and
  `BookingDecision`.
- Code that works step by step is written as methods with loops, each
  proved equal to its specification function: `GenerateTimeSlots`,
  `CollectCandidates`, `RemoveClosures`, `GetAvailableSlots`, `GetAllSlots`
  and `BuildWeekGrid`.
- State that the source updates in place is held in classes. A closure
  record's `clean` clears its own times. The encounter table belongs to
  `EncounterStore`, whose `ChangeStatus` and `Book` methods change it.

Files:

- `common.dfy`: `Option` and `Result`.
- `calendar.dfy`: ordinals and weekdays.
- `models.dfy`: records, statuses and validation.
- `slots.dfy`: the engine.
- `views.dfy`: the handlers.

The engine's methods require `Slots.Ready`:

- every recurring template of the doctor and clinic has an interval of at
  least one week and a positive slot length;
- every one-off template of the date has a positive slot length;
- every partial closure of the date carries both times.

Rows breaking these may make the source divide by zero, loop forever or
compare a missing time. `Slots.Ready` also excludes some such rows the
source tolerates: an interval-0 template is never divided by when the date
is before its anchor or on another weekday, and a partial closure without
times is never compared when an earlier full-day closure has emptied the
day or no candidate slot is left. `Slots.ValidatedRowsReady` shows that
rows which pass their model's validation meet these conditions.

Places where the code's own behaviour is easy to misread:

- **Confirmed encounters.** The status choices include *confirmed*, but
  only a *scheduled* encounter can be marked arrived, and only a
  *scheduled* or *arrived* one can be cancelled. A *confirmed* encounter
  therefore admits no action at all (`Views.TerminalStatesAreFinal`). No
  view in core/views.py sets that status; only the unrestricted admin page
  for encounters can, and that page is not part of this model.
- **Non-atomic booking.** The code checks availability and then inserts,
  with no lock or uniqueness constraint, so two requests can book the same
  start. `Views.EncounterStore.Book` runs as one step, which is all a
  sequential model can express.
- **Past and unavailable slots.** The code shows the same message for a
  booking in the past and for one whose slot is not free. Its second check
  refuses any start not in the available list: a taken start, a closed
  one, or one no template offers. `Views.BookingError` keeps the past case
  apart from the rest (`SlotUnavailable`), but both are shown to the user
  the same way.

## Model

| member | source | states |
|---|---|---|
| Calendar.SameWeekday | core/slots.py:31 | Two dates fall on the same weekday exactly when they are a whole number of weeks apart. |
| Models.NewEncounter | core/models.py:97 | A newly created encounter has status scheduled, is active, and carries the given patient, doctor, clinic, date and time. |
| Models.CleanRecurring | core/models.py:137-141 | `clean` accepts exactly a row whose start is before its end and whose start date falls on its weekday; otherwise it raises one of those two errors. |
| Models.ValidateRecurring | core/models.py:126-141 | Validation reports every field error and the error `clean` raises, and nothing else. That it is empty exactly for well-formed rows is `Models.RecurringValidation`. |
| Models.RecurringValidation | core/models.py:126-141 | A recurring schedule passes its field validators and `clean` exactly when it is well formed: weekday 0-6, interval ≥ 1 week, slot ≥ 5 minutes, start before end, start date on the chosen weekday. It names the error for a reversed range and, otherwise, for a wrong weekday. |
| Models.CleanOccasional | core/models.py:204-206 | `clean` accepts exactly a row whose start is before its end, and otherwise raises the reversed-range error. |
| Models.ValidateOccasional | core/models.py:200-206 | Validation reports a slot below 5 minutes exactly when there is one, a reversed range exactly when there is one, and nothing else. |
| Models.OccasionalValidation | core/models.py:200-206 | A one-off schedule passes validation exactly when its slot is ≥ 5 minutes and its start is before its end; a reversed range is reported. |
| Models.CleanClosedWindow | core/models.py:166-176 | A full-day closure is accepted with both times cleared. A partial closure missing a time is refused with the missing-times error. An accepted partial closure is unchanged. Doctor, clinic, date and full-day flag never change. |
| Models.CleanClosedWindowSound | core/models.py:166-176 | Cleaning yields a well-formed closure and is idempotent. It fails exactly for a partial closure that is not well formed. |
| Models.ClosedWindowRecord.constructor | core/models.py:153-164 | A new record holds the given closure. |
| Models.ClosedWindowRecord.Clean | core/models.py:166-176 | On success the record becomes the cleaned closure, with the times of a full-day closure cleared in place. On failure the record is unchanged and the error is the one cleaning reports. |
| Slots.GenerateTimeSlots | core/slots.py:15-24 | The loop returns exactly `SlotStarts`: start, start+d, … while a whole slot still fits before the end. |
| Slots.SlotStartsFit | core/slots.py:15-24 | The first slot begins at the range start, consecutive slots are one duration apart, and every slot ends by the range end. |
| Slots.SlotStartsIncreasing | core/slots.py:15-24 | Generated starts are strictly ascending. |
| Slots.SlotStartsMaximal | core/slots.py:21 | The last slot fits and one more would not. A range shorter than one slot gives none. |
| Slots.SlotStartsMembership | core/slots.py:15-24 | A time is generated exactly when it lies on the duration grid from the start and its slot ends by the end. |
| Slots.SlotStartsContains | core/slots.py:21-23 | The k-th step from the start is generated whenever its whole slot fits before the end. |
| Slots.SlotStartsTile | core/slots.py:15-24 | When the duration divides the range, the number of slots times the duration is the range's length. |
| Slots.RecurringApplies | core/slots.py:27-34 | A template applies only on or after its start date and on its weekday, and always on its start date when that is on its weekday. The full cadence is `Slots.RecurringAppliesCadence`. |
| Slots.RecurringAppliesCadence | core/slots.py:27-34 | For a schedule whose start date is on its weekday, it applies exactly on the dates on or after the start date that are a multiple of the interval in weeks away. |
| Slots.RecurringAppliesPeriodic | core/slots.py:27-34 | A schedule that applies on a date also applies one interval of weeks later. |
| Slots.BiweeklyExample | core/slots.py:27-34 | A two-weekly Monday schedule from 2024-01-01 applies on Jan 15 and 29. It does not apply on Jan 8 or 22, before its start, or on a Tuesday. |
| Slots.ValidatedRowsReady | core/models.py:127-141 | Rows that pass validation satisfy everything the engine needs, for any query. |
| Slots.RecurringWindows | core/slots.py:48-52 | The recurring windows are exactly the ranges and slot lengths of the doctor's and clinic's schedules that apply on the date. Each has a positive slot length. |
| Slots.OccasionalWindows | core/slots.py:55-60 | The one-off windows are exactly those of the doctor's, clinic's and date's schedules. |
| Slots.MergeOrder | core/slots.py:47-60 | Every window to expand has a positive slot length. |
| Slots.WriteSlotsEffect | core/slots.py:51-52 | Writing a run of starts adds exactly those keys with the written duration and leaves the other keys alone. |
| Slots.MergeWindowsAppend | core/slots.py:47-60 | Expanding two runs of windows one after the other equals expanding their concatenation. |
| Slots.MergeWindowsKeys | core/slots.py:47-60 | The merged keys are the initial keys plus every start of every window. |
| Slots.MergeWindowsLastWins | core/slots.py:52 | A start's merged length comes from the last window that generates it. |
| Slots.MergeWindowsUntouched | core/slots.py:47-60 | A start that no window generates keeps its initial length. |
| Slots.MergeWindowsProducer | core/slots.py:47-60 | A start that some window generates is merged, with the slot length of some window that generates it. |
| Slots.CandidateKeys | core/slots.py:45-60 | A time is a candidate exactly when an applicable recurring template, or a one-off template of the date, generates it. |
| Slots.CandidateLastWriteWins | core/slots.py:45-60 | A candidate's slot length is that of the last template, in merge order, that generates it. |
| Slots.OneOffOverridesRecurring | core/slots.py:58-60 | Where a one-off template of the date generates a start, the candidate takes the slot length of a one-off template that generates it (the last such in table order, see `Slots.CandidateLastWriteWins`), whatever the recurring templates say. |
| Slots.ClosuresCumulative | core/slots.py:66-80 | Applying closures from two lists equals applying the first list and then the second, as the loop does one closure at a time. |
| Slots.ClosuresOnlyRemove | core/slots.py:66-80 | Closures only remove slots and never change a surviving slot's length. A slot that no selected partial closure blocks survives, unless a full-day closure is selected. |
| Slots.ClosuresIdempotent | core/slots.py:66-80 | Applying the same closures twice changes nothing more. |
| Slots.BoundaryTouchingSlotsSurvive | core/slots.py:77 | Against a 12:00-13:00 closure, a 30-minute slot at 11:30 and a slot at 13:00 survive, and a slot at 11:45 is removed. |
| Slots.ClosureStep | core/slots.py:67-80 | One more closure after closures with no full day: a closure of another doctor, clinic or date changes nothing, and a selected partial closure removes exactly the slots of the partial result that overlap it. |
| Slots.RemoveClosures | core/slots.py:65-83 | The loop's result, including the early return for a full-day closure, equals the declarative closure application. |
| Slots.CollectCandidates | core/slots.py:45-60 | The two template loops build exactly the candidate map. |
| Slots.WriteAll | core/slots.py:51-52 | The inner loop writes the template's slot length at every generated start, in order, exactly as `WriteSlots` does. |
| Slots.BookedMap | core/slots.py:168-170 | The booked map's keys are the booked start times. Each maps to an active encounter of the doctor, clinic and date at that time. |
| Slots.BookedMapLastWins | core/slots.py:169-170 | When several active encounters share a start, the map holds the last of them. |
| Slots.SortedTimes | core/slots.py:101 | Sorting gives a strictly ascending list with exactly the set's elements. |
| Slots.StrictlyIncreasingUnique | core/slots.py:101 | Two strictly ascending lists with the same elements are equal, so the sorted order is unique. |
| Slots.AvailableTimes | core/slots.py:172-183 | The available entries' times are exactly the times marked available. |
| Slots.AvailableTimesIncreasing | core/slots.py:172-183 | Keeping the available entries of an ascending list keeps it ascending. |
| Slots.AvailableSlotsMeaning | core/slots.py:37-102 | The available list is ascending. A time is in it exactly when it survives the closures and no active encounter of the doctor, clinic and date starts at it. Every available time is a candidate. |
| Slots.AllSlotsMeaning | core/slots.py:105-185 | The full list is ascending with one entry per surviving start. An entry is booked exactly when an active encounter starts there. A booked entry names such an encounter's id and patient. |
| Slots.AllSlotsAgreeWithAvailable | core/slots.py:37-185 | The entries the full list marks available are, in order, exactly the available list. |
| Slots.NoTemplatesNoSlots | core/slots.py:62-63 | With no candidate starts, both lists are empty. |
| Slots.FullDayClosureEmptiesDay | core/slots.py:68-69 | A full-day closure of the doctor, clinic and date empties both lists, whatever the bookings. |
| Slots.MondayMorningExample | core/slots.py:37-185 | For a weekly Monday 08:00-10:00 template of 30-minute slots and a booking at 09:00 on Monday 2024-03-04: 08:00, 08:30 and 09:30 are available, and 09:00 is booked for that encounter. |
| Slots.GetAvailableSlots | core/slots.py:37-102 | The method, with its two early returns, returns exactly the available list. |
| Slots.BuildBookedMap | core/slots.py:168-170 | The loop builds exactly the booked map. |
| Slots.AnnotateTimes | core/slots.py:172-183 | Each sorted start becomes a booked entry with the mapped encounter's id and patient, or an available entry. |
| Slots.GetAllSlots | core/slots.py:105-185 | The method, with its two early returns, returns exactly the annotated list. |
| Views.Transition | core/views.py:190-249 | An action succeeds only from an active status and always changes it. Arrive, start and complete refuse with 404, and cancel with 403. Which transitions exist is `Views.TransitionsAdvance`, `Views.TerminalStatesAreFinal` and `Views.VisitLifecycle`. |
| Views.TransitionsAdvance | core/views.py:193-249 | An accepted action moves the status strictly forward and starts from an active status. Only cancelling ends in cancelled, and only cancelling makes the encounter inactive. |
| Views.TerminalStatesAreFinal | core/views.py:193-249 | Completed, cancelled and confirmed encounters admit no action. A refusal is 403 exactly for a cancel, and 404 otherwise. |
| Views.VisitLifecycle | core/views.py:193-249 | Scheduled → arrived → in progress → completed, and arrived → cancelled, are all accepted. |
| Views.FindEncounter | core/views.py:241 | The lookup finds a row with that id and clinic, or reports that there is none. |
| Views.StatusChange | core/views.py:193-249 | A successful action keeps every encounter and changes nothing but statuses. Exactly which one changes is `Views.StatusChangeMeaning`. |
| Views.StatusChangeMeaning | core/views.py:193-249 | With unique ids, an action succeeds exactly when the encounter with that id is at the clinic and its status admits the action. On success only that encounter's status changes, to the action's target. |
| Views.StatusChangeBookings | core/views.py:193-249 | Arrive, start and complete leave every day's booked start times unchanged. Cancel can only remove booked times. |
| Views.StatusChangeAvailability | core/views.py:193-249 | Arrive, start and complete leave every day's available list unchanged. No action takes a slot away. Cancelling an encounter that alone held a surviving start frees that start. |
| Views.BookingDecision | core/views.py:290-304 | A booking is refused as past exactly when its moment is at or before now. It goes through exactly when it is in the future, its start survives the closures and no active encounter starts there. |
| Views.BookedEncounter | core/views.py:299-304 | The created encounter is active for the doctor, clinic and date at the requested start, with the new id and the patient. |
| Views.BookedTimesAppend | core/views.py:299-304 | Adding an active encounter adds exactly its start to the booked times. |
| Views.BookingRoundTrip | core/views.py:290-304 | After a booking goes through, the available list loses exactly that start. The full list shows it booked with the new encounter and patient. A second booking of the same start is refused as unavailable. |
| Views.PastBookingRefused | core/views.py:293-294 | Booking a start at or before now today, or any start on a past day, is refused. |
| Views.EncounterStore.constructor | core/models.py:83-98 | A new store holds the given tables, no encounters, and the first id 1. |
| Views.EncounterStore.ChangeStatus | core/views.py:193-249 | The encounters become exactly `StatusChange`'s result, or stay unchanged and the refusal is reported. The other tables and the next id are unchanged, and the ids stay unique. |
| Views.EncounterStore.Book | core/views.py:290-304 | When the decision accepts, the new encounter is appended with the next id and that id is returned. Otherwise the refusal is returned and nothing changes. |
| Views.WeekStart | core/views.py:263-269 | The snapped date is a Monday, on or before the requested date and less than seven days before it. |
| Views.WeekStartUnique | core/views.py:263-269 | A Monday on or before a date, less than a week earlier, is that date's week start. |
| Views.SelectWeek | core/views.py:263-273 | The page fails with `DateOverflow` exactly when the week before or after the snapped Monday leaves the calendar. Otherwise the shown week starts on the Monday of the requested date, or of today when none parses. Its seven dates run Monday to Sunday, and it and both links are real dates a week apart. |
| Views.WeekOverflowEdges | core/views.py:271-273 | The page fails exactly for a requested date in 0001-01-01 .. 0001-01-07 or in 9999-12-27 .. 9999-12-31. |
| Views.WeekNavigation | core/views.py:263-273 | The previous and next links snap to the Mondays one week before and after. Requesting any shown date gives the same page. |
| Views.FutureEntries | core/views.py:330 | The kept entries are exactly those strictly later than now. |
| Views.FutureEntriesIncreasing | core/views.py:330 | Filtering keeps ascending order. |
| Views.DayCell | core/views.py:324-330 | A past day's cell is empty. Today's holds the day's entries later than now, and a future day's holds all of them. |
| Views.DayCellOrdered | core/views.py:324-330 | A cell lists its starts in ascending order. |
| Views.DayCellAccepted | core/views.py:290-330 | A booking made now accepts every slot that a cell shows as available. |
| Views.DayCellComplete | core/views.py:324-330 | A cell marks a start booked only when an active encounter holds it. It shows every available start later than now. |
| Views.BuildDayCell | core/views.py:324-331 | The cell the loop body builds is `DayCell`. |
| Views.BuildGridRow | core/views.py:323-332 | A doctor's row has one `DayCell` per date (`IsGridRow`). |
| Views.BuildWeekGrid | core/views.py:314-332 | The grid has one row per doctor and one `DayCell` per date (`IsGrid`). |
| Views.TodaysEncounters | core/views.py:86-92 | The dashboard rows are exactly the encounters of today at the clinic, and only the given doctor's when a doctor is given. |
| Views.WithStatusIn | core/views.py:94-97 | A column holds exactly the rows whose status is in its set. |
| Views.WithStatusInSplit | core/views.py:94-97 | Filtering by two disjoint status sets splits the filter by their union. |
| Views.WithStatusInAll | core/views.py:94-97 | Filtering by every status keeps every row. |
| Views.WithStatusInOrdered | core/views.py:88-97 | Filtering keeps schedule order. |
| Views.StatusColumnsPartition | core/views.py:94-97 | The four columns together hold every row exactly once. |
| Views.Dashboard | core/views.py:84-97 | Every row shown is one of today's encounters at the clinic, and the doctor's when one is given. In-progress, waiting, upcoming and done hold only in-progress, arrived, scheduled or confirmed, and completed or cancelled encounters. That every row is shown exactly once is `Views.DashboardPartition`. |
| Views.DashboardPartition | core/views.py:85-97 | Every one of the day's rows appears in exactly one column, once: in progress, waiting (arrived), upcoming (scheduled or confirmed), or done (completed or cancelled). |
| Views.DashboardOrder | core/views.py:85-97 | When the day's rows come in schedule order, so does each column. |

## Left out

- Time zones: `make_aware`, `localtime` and `localdate` are left out, so
  dates and times are local wall-clock values. Daylight-saving gaps and
  repeats are not modelled.
- Seconds and microseconds of stored times are not modelled. A booking
  whose time is not a whole minute is compared as minutes.
- Concurrency: two bookings racing between the availability check and the
  insert are not modelled. `Views.EncounterStore.Book` is one atomic step.
- Authentication and the session's clinic are left out. The clinic and
  the dashboard's doctor filter are parameters.
- Roles are left out. The model assumes a caller allowed to take every
  action, so the 403 that `encounter_mark_arrived` and `encounter_create`
  give other roles before any lookup is not modelled, nor the redirect of a
  front-desk user away from the dashboard.
- HTML rendering, redirects, the `next` parameter, audit log entries and
  translations are left out. A `?week=` that does not parse is `None`
  (`Views.SelectWeek`), as the source falls back to the current week. The
  booking form's `date` and `slot` are taken as day and minute numbers: a
  malformed value makes `strptime` raise `ValueError`, a server error,
  which the model does not express.
- Views.EncounterStore.Book: the doctor and patient lookups of the booking
  handler are left out, and the booking takes their ids as given. The
  source answers 404 for an unknown patient id, for an unknown doctor id,
  and also for an existing doctor of another clinic. The model accepts
  such a booking. It also ignores the page's `?week=`: the source computes
  the week's dates and links before handling the POST, so a booking posted
  with a week in 0001-01-01 .. 0001-01-07 or 9999-12-27 .. 9999-12-31 fails
  with `OverflowError` (see `Views.WeekOverflowEdges`) before any check,
  while the model books it.
- The patient's display string is left out. A booked slot carries the
  patient's id instead.
- A nullable clinic on the records is left out: every row has a clinic.
- The dashboard's `order_by("scheduled_at")` is done by the store and is
  not modelled. `Views.DashboardOrder` shows that the columns keep
  whatever schedule order the rows arrive in.
- `front_desk_dashboard`, `doctor_schedule` and the create, update and
  delete views for schedules, closures, patients and encounters are left
  out. Clinical notes and prescriptions are also left out.
- Slots.GetAvailableSlots / Slots.GetAllSlots: require `Slots.Ready`.
  Rows that bypass validation may make the source crash or loop, and the
  model does not express that. Ready also excludes some such rows on which
  the source returns a list normally (an interval-0 template that does not
  fall due, a time-less partial closure that is never compared).

=== FILE: calendar.dfy ===
/**
 * Calendar arithmetic on day numbers.
 *
 * A date is its proleptic Gregorian ordinal, the same number Python's
 * `date.toordinal()` gives (0001-01-01 is day 1), so subtracting two dates
 * gives the `.days` of their difference and `Weekday` agrees with
 * `date.weekday()` (0 = Monday .. 6 = Sunday).
 */
module Calendar {

  predicate IsLeapYear(year: int) {
    year % 4 == 0 && (year % 100 != 0 || year % 400 == 0)
  }

  function DaysInMonth(year: int, month: int): int
    requires 1 <= month <= 12
  {
    if month == 2 then (if IsLeapYear(year) then 29 else 28)
    else if month in {4, 6, 9, 11} then 30
    else 31
  }

  /** Days in the months of `year` that come before `month`. */
  function DaysBeforeMonth(year: int, month: int): int
    requires 1 <= month <= 12
  {
    if month == 1 then 0 else DaysBeforeMonth(year, month - 1) + DaysInMonth(year, month - 1)
  }

  /** Days in the years before `year`. */
  function DaysBeforeYear(year: int): int
    requires year >= 1
  {
    var y := year - 1;
    y * 365 + y / 4 - y / 100 + y / 400
  }

  /** The ordinal of the calendar date year-month-day. */
  function Ordinal(year: int, month: int, day: int): int
    requires year >= 1 && 1 <= month <= 12 && 1 <= day <= DaysInMonth(year, month)
  {
    DaysBeforeYear(year) + DaysBeforeMonth(year, month) + day
  }

  /** The first date Python's `date` can hold, 0001-01-01. */
  const MinDate := 1

  /** The last date Python's `date` can hold, 9999-12-31. */
  const MaxDate := 3652059

  /** Whether a day number is a date Python can represent; arithmetic leaving this range raises `OverflowError`. */
  predicate InCalendar(d: int) {
    MinDate <= d <= MaxDate
  }

  /** The years before 9999 hold 3651694 days, and year 9999 is common, so its first eleven months hold 334. */
  lemma DaysBeforeLastMonth()
    ensures DaysBeforeYear(9999) == 3651694 && DaysBeforeMonth(9999, 12) == 334
  {
    assert 9998 / 4 == 2499 && 9998 / 100 == 99 && 9998 / 400 == 24;
    assert !IsLeapYear(9999);
    assert DaysBeforeMonth(9999, 2) == 31;
    assert DaysBeforeMonth(9999, 3) == 59;
    assert DaysBeforeMonth(9999, 4) == 90;
    assert DaysBeforeMonth(9999, 5) == 120;
    assert DaysBeforeMonth(9999, 6) == 151;
    assert DaysBeforeMonth(9999, 7) == 181;
    assert DaysBeforeMonth(9999, 8) == 212;
    assert DaysBeforeMonth(9999, 9) == 243;
    assert DaysBeforeMonth(9999, 10) == 273;
    assert DaysBeforeMonth(9999, 11) == 304;
  }

  /** `MaxDate` is the ordinal of 9999-12-31 (and `MinDate` is plainly that of 0001-01-01). */
  lemma LastDate()
    ensures Ordinal(9999, 12, 31) == MaxDate
  {
    DaysBeforeLastMonth();
  }

  /** Day of the week of a day number: 0 = Monday .. 6 = Sunday. */
  function Weekday(date: int): (w: int)
    ensures 0 <= w < 7
  {
    (date + 6) % 7
  }

  /** Two dates fall on the same weekday exactly when they are a whole number of weeks apart. */
  lemma SameWeekday(a: int, b: int)
    ensures Weekday(a) == Weekday(b) <==> (a - b) % 7 == 0
  {
    var qa, qb := (a + 6) / 7, (b + 6) / 7;
    assert a - b == 7 * (qa - qb) + (Weekday(a) - Weekday(b));
    if (a - b) % 7 == 0 {
      var k := (a - b) / 7;
      assert Weekday(a) - Weekday(b) == 7 * (k - qa + qb);
    }
  }
}

=== FILE: common.dfy ===
/** Small value wrappers shared by the other modules. */
module Common {

  /** A value that may be absent (a nullable column, a failed lookup). */
  datatype Option<+T> = None | Some(value: T) {
    function GetOr(default: T): T {
      match this
      case Some(v) => v
      case None => default
    }
  }

  /** The outcome of an operation that either succeeds or is refused with an error. */
  datatype Result<+T, +E> = Ok(value: T) | Err(error: E)
}

=== FILE: models.dfy ===
/**
 * The records the slot engine reads and the validation rules they pass
 * before they are stored: the field minimums and the `clean()` methods.
 * Times are minutes since midnight, dates are day numbers (see Calendar).
 */
module Models {
  import opened Common
  import opened Calendar

  /** Lifecycle status of an encounter (a booking). */
  datatype Status = Scheduled | Confirmed | Arrived | InProgress | Completed | Cancelled

  /** The statuses the slot engine counts as occupying a slot: every status but Cancelled. */
  predicate IsActive(s: Status) {
    s in {Scheduled, Confirmed, Arrived, InProgress, Completed}
  }

  /**
   * An encounter, as far as scheduling sees it. `date` and `time` split the
   * local wall-clock `scheduled_at`; the patient is referenced by id.
   */
  datatype Encounter = Encounter(
    id: nat, patient: nat, doctor: nat, clinic: nat, date: int, time: int, status: Status)

  /** A freshly created encounter takes the default status. */
  function NewEncounter(id: nat, patient: nat, doctor: nat, clinic: nat, date: int, time: int): (e: Encounter)
    ensures e.status == Scheduled && IsActive(e.status)
    ensures e.id == id && e.patient == patient && e.doctor == doctor && e.clinic == clinic
    ensures e.date == date && e.time == time
  {
    Encounter(id, patient, doctor, clinic, date, time, Scheduled)
  }

  /** A weekly availability template repeating every `intervalWeeks` weeks from `startDate`. */
  datatype RecurringSchedule = RecurringSchedule(
    doctor: nat, clinic: nat, weekday: int, intervalWeeks: int, startDate: int,
    startTime: int, endTime: int, slotDuration: int)

  /** A one-off availability template for a single date. */
  datatype OccasionalSchedule = OccasionalSchedule(
    doctor: nat, clinic: nat, date: int, startTime: int, endTime: int, slotDuration: int)

  /** A full-day or partial-day closure; the times are nullable columns. */
  datatype ClosedWindow = ClosedWindow(
    doctor: nat, clinic: nat, date: int, isFullDay: bool,
    startTime: Option<int>, endTime: Option<int>)

  datatype ValidationError =
    | StartNotBeforeEnd        // "start_time must be before end_time."
    | StartDateWrongWeekday    // "start_date must fall on the chosen weekday."
    | MissingClosureTimes      // "start_time and end_time are required for partial-day closures."
    | WeekdayNotAChoice        // weekday outside the Monday..Sunday choices
    | IntervalBelowMinimum     // interval_weeks below its MinValueValidator
    | DurationBelowMinimum     // slot_duration below its MinValueValidator

  const MinIntervalWeeks := 1
  const MinSlotDuration := 5

  // ---------------------------------------------------------------------------
  // RecurringSchedule

  /** Field-level validation: the weekday choices and the two minimums. */
  function RecurringFieldErrors(s: RecurringSchedule): set<ValidationError> {
    (if 0 <= s.weekday <= 6 then {} else {WeekdayNotAChoice})
    + (if s.intervalWeeks >= MinIntervalWeeks then {} else {IntervalBelowMinimum})
    + (if s.slotDuration >= MinSlotDuration then {} else {DurationBelowMinimum})
  }

  /** `RecurringSchedule.clean`: raises the first failing rule, or accepts (None). */
  function CleanRecurring(s: RecurringSchedule): (r: Option<ValidationError>)
    ensures r.None? <==> s.startTime < s.endTime && Weekday(s.startDate) == s.weekday
    ensures r.Some? ==> r.value == StartNotBeforeEnd || r.value == StartDateWrongWeekday
  {
    if s.startTime >= s.endTime then Some(StartNotBeforeEnd)
    else if Weekday(s.startDate) != s.weekday then Some(StartDateWrongWeekday)
    else None
  }

  /** Full validation: field errors and the error `clean` raises are collected together. */
  function ValidateRecurring(s: RecurringSchedule): (r: set<ValidationError>)
    ensures RecurringFieldErrors(s) <= r
    ensures CleanRecurring(s).Some? ==> CleanRecurring(s).value in r
    ensures r <= RecurringFieldErrors(s) + {StartNotBeforeEnd, StartDateWrongWeekday}
  {
    RecurringFieldErrors(s) + (match CleanRecurring(s) case Some(e) => {e} case None => {})
  }

  /** What a stored recurring schedule is known to satisfy. */
  predicate RecurringWellFormed(s: RecurringSchedule) {
    && 0 <= s.weekday <= 6
    && s.intervalWeeks >= MinIntervalWeeks
    && s.slotDuration >= MinSlotDuration
    && s.startTime < s.endTime
    && Weekday(s.startDate) == s.weekday
  }

  /** A record passes validation exactly when it is well formed. */
  lemma RecurringValidation(s: RecurringSchedule)
    ensures ValidateRecurring(s) == {} <==> RecurringWellFormed(s)
    ensures s.startTime >= s.endTime ==> StartNotBeforeEnd in ValidateRecurring(s)
    ensures (s.startTime < s.endTime && Weekday(s.startDate) != s.weekday)
            ==> StartDateWrongWeekday in ValidateRecurring(s)
  {
    if !RecurringWellFormed(s) {
      if !(0 <= s.weekday <= 6) { assert WeekdayNotAChoice in ValidateRecurring(s); }
      else if s.intervalWeeks < MinIntervalWeeks { assert IntervalBelowMinimum in ValidateRecurring(s); }
      else if s.slotDuration < MinSlotDuration { assert DurationBelowMinimum in ValidateRecurring(s); }
      else if s.startTime >= s.endTime { assert StartNotBeforeEnd in ValidateRecurring(s); }
      else { assert StartDateWrongWeekday in ValidateRecurring(s); }
    }
  }

  // ---------------------------------------------------------------------------
  // OccasionalSchedule

  function OccasionalFieldErrors(o: OccasionalSchedule): set<ValidationError> {
    if o.slotDuration >= MinSlotDuration then {} else {DurationBelowMinimum}
  }

  /** `OccasionalSchedule.clean`. */
  function CleanOccasional(o: OccasionalSchedule): (r: Option<ValidationError>)
    ensures r.None? <==> o.startTime < o.endTime
    ensures r.Some? ==> r.value == StartNotBeforeEnd
  {
    if o.startTime >= o.endTime then Some(StartNotBeforeEnd) else None
  }

  /** Full validation: the slot-length minimum and the error `clean` raises, collected together. */
  function ValidateOccasional(o: OccasionalSchedule): (r: set<ValidationError>)
    ensures (o.slotDuration < MinSlotDuration) <==> DurationBelowMinimum in r
    ensures (o.startTime >= o.endTime) <==> StartNotBeforeEnd in r
    ensures r <= {DurationBelowMinimum, StartNotBeforeEnd}
  {
    OccasionalFieldErrors(o) + (match CleanOccasional(o) case Some(e) => {e} case None => {})
  }

  predicate OccasionalWellFormed(o: OccasionalSchedule) {
    o.slotDuration >= MinSlotDuration && o.startTime < o.endTime
  }

  lemma OccasionalValidation(o: OccasionalSchedule)
    ensures ValidateOccasional(o) == {} <==> OccasionalWellFormed(o)
    ensures o.startTime >= o.endTime ==> StartNotBeforeEnd in ValidateOccasional(o)
  {
    if !OccasionalWellFormed(o) {
      if o.slotDuration < MinSlotDuration { assert DurationBelowMinimum in ValidateOccasional(o); }
      else { assert StartNotBeforeEnd in ValidateOccasional(o); }
    }
  }

  // ---------------------------------------------------------------------------
  // ClosedWindow

  /**
   * `ClosedWindow.clean`: a full-day closure has its times cleared and is
   * accepted; a partial one needs both times, in order. On success the
   * (possibly updated) record is returned.
   */
  function CleanClosedWindow(w: ClosedWindow): (r: Result<ClosedWindow, ValidationError>)
    ensures w.isFullDay ==> r.Ok?
    ensures r.Ok? ==> r.value.doctor == w.doctor && r.value.clinic == w.clinic
                      && r.value.date == w.date && r.value.isFullDay == w.isFullDay
    ensures r.Ok? && w.isFullDay ==> r.value.startTime.None? && r.value.endTime.None?
    ensures r.Ok? && !w.isFullDay ==> r.value == w
    ensures !w.isFullDay && (w.startTime.None? || w.endTime.None?) ==> r == Err(MissingClosureTimes)
  {
    if w.isFullDay then
      Ok(w.(startTime := None, endTime := None))
    else if w.startTime.None? || w.endTime.None? then
      Err(MissingClosureTimes)
    else if w.startTime.value >= w.endTime.value then
      Err(StartNotBeforeEnd)
    else
      Ok(w)
  }

  /** What a stored closure is known to satisfy. */
  predicate ClosedWindowWellFormed(w: ClosedWindow) {
    if w.isFullDay then w.startTime.None? && w.endTime.None?
    else w.startTime.Some? && w.endTime.Some? && w.startTime.value < w.endTime.value
  }

  /** Cleaning yields a well-formed record, and cleaning it again changes nothing. */
  lemma CleanClosedWindowSound(w: ClosedWindow)
    ensures CleanClosedWindow(w).Ok? ==> ClosedWindowWellFormed(CleanClosedWindow(w).value)
    ensures CleanClosedWindow(w).Ok? ==> CleanClosedWindow(CleanClosedWindow(w).value) == CleanClosedWindow(w)
    ensures CleanClosedWindow(w).Err? <==> !w.isFullDay && !ClosedWindowWellFormed(w)
  {
  }

  /** A closure record whose `clean` updates its own times in place. */
  class ClosedWindowRecord {
    var doctor: nat
    var clinic: nat
    var date: int
    var isFullDay: bool
    var startTime: Option<int>
    var endTime: Option<int>

    function Value(): ClosedWindow
      reads this
    {
      ClosedWindow(doctor, clinic, date, isFullDay, startTime, endTime)
    }

    constructor (w: ClosedWindow)
      ensures Value() == w
    {
      doctor, clinic, date := w.doctor, w.clinic, w.date;
      isFullDay, startTime, endTime := w.isFullDay, w.startTime, w.endTime;
    }

    /** Clears the times of a full-day closure, or rejects a malformed partial one unchanged. */
    method Clean() returns (error: Option<ValidationError>)
      modifies this
      ensures error.None? ==> CleanClosedWindow(old(Value())) == Ok(Value())
      ensures error.Some? ==> CleanClosedWindow(old(Value())) == Err(error.value) && Value() == old(Value())
    {
      if isFullDay {
        startTime := None;
        endTime := None;
        error := None;
      } else if startTime.None? || endTime.None? {
        error := Some(MissingClosureTimes);
      } else if startTime.value >= endTime.value {
        error := Some(StartNotBeforeEnd);
      } else {
        error := None;
      }
    }
  }
}

=== FILE: slots.dfy ===
/**
 * The appointment-slot engine: which start times a doctor can be booked at on
 * a date at a clinic.
 *
 *   templates --(GenerateTimeSlots, last write wins)--> candidate map start -> duration
 *             --(closures: full day empties, partial removes overlaps)--> surviving map
 *             --(bookings: exact start-time match)--> available list / annotated list
 *
 * Each database query is an explicit input sequence holding the whole table
 * in the order the store returns it; the filters the queries apply (doctor,
 * clinic, date, active status) are the *Selected / Occupies predicates below.
 * The pure functions are the specification; the methods follow the source's
 * loops and are proved equal to them.
 */
module Slots {
  import opened Common
  import opened Calendar
  import opened Models

  /** The doctor, clinic and date an availability query is about. */
  datatype Query = Query(doctor: nat, clinic: nat, date: int)

  predicate StrictlyIncreasing(s: seq<int>) {
    forall i, j :: 0 <= i < j < |s| ==> s[i] < s[j]
  }

  // ===========================================================================
  // Arithmetic helpers

  /** Division is determined by the bounds it must satisfy. */
  lemma DivModUnique(a: int, m: int, q: int, r: int)
    requires m > 0 && a == q * m + r && 0 <= r < m
    ensures a / m == q && a % m == r
  {
    var k := q - a / m;
    assert k * m == a % m - r;
  }

  lemma MulMono(a: int, b: int, m: int)
    requires a <= b && m >= 0
    ensures a * m <= b * m
  {
  }

  /** The quotient times the divisor is the largest multiple not above the dividend. */
  lemma DivBounds(a: int, m: int)
    requires a >= 0 && m > 0
    ensures (a / m) * m <= a < (a / m + 1) * m
  {
  }

  // ===========================================================================
  // Interval generator

  /** How many slots of `duration` fit between `startTime` and `endTime`. */
  function SlotCount(startTime: int, endTime: int, duration: int): nat
    requires duration > 0
  {
    if startTime <= endTime then (endTime - startTime) / duration else 0
  }

  /** Reference definition: the progression startTime, startTime + duration, ... of SlotCount terms. */
  function SlotStarts(startTime: int, endTime: int, duration: int): seq<int>
    requires duration > 0
  {
    seq(SlotCount(startTime, endTime, duration), k => startTime + k * duration)
  }

  /**
   * `_generate_time_slots`: step from the start time by `duration` while a
   * whole slot still fits before the end time.
   */
  method GenerateTimeSlots(startTime: int, endTime: int, duration: int) returns (slots: seq<int>)
    requires duration > 0
    ensures slots == SlotStarts(startTime, endTime, duration)
  {
    slots := [];
    var current := startTime;
    while current + duration <= endTime
      invariant current == startTime + |slots| * duration
      invariant forall k :: 0 <= k < |slots| ==> slots[k] == startTime + k * duration
      invariant |slots| > 0 ==> current <= endTime
      decreases endTime - current
    {
      slots := slots + [current];
      current := current + duration;
    }
    if |slots| > 0 || startTime <= endTime {
      DivModUnique(endTime - startTime, duration, |slots|, endTime - current);
    }
  }

  /**
   * The generated starts begin at the start time, step by exactly the
   * duration, and each slot ends by the end time.
   */
  lemma SlotStartsFit(startTime: int, endTime: int, duration: int)
    requires duration > 0
    ensures var r := SlotStarts(startTime, endTime, duration);
      && (|r| > 0 ==> r[0] == startTime)
      && (forall k :: 0 <= k < |r| - 1 ==> r[k + 1] == r[k] + duration)
      && (forall k :: 0 <= k < |r| ==> startTime <= r[k] && r[k] + duration <= endTime)
  {
    var r := SlotStarts(startTime, endTime, duration);
    var n := |r|;
    if n > 0 {
      DivBounds(endTime - startTime, duration);
      assert n * duration <= endTime - startTime;
    }
    forall k | 0 <= k < n
      ensures startTime <= r[k] && r[k] + duration <= endTime
    {
      MulMono(0, k, duration);
      MulMono(k + 1, n, duration);
      assert r[k] + duration == startTime + (k + 1) * duration;
    }
  }

  /** The generated starts are strictly increasing. */
  lemma SlotStartsIncreasing(startTime: int, endTime: int, duration: int)
    requires duration > 0
    ensures StrictlyIncreasing(SlotStarts(startTime, endTime, duration))
  {
    var r := SlotStarts(startTime, endTime, duration);
    forall i, j | 0 <= i < j < |r|
      ensures r[i] < r[j]
    {
      MulMono(i + 1, j, duration);
    }
  }

  /**
   * The count is the largest that fits: one more slot would overrun the end
   * time, and a duration longer than the range yields no slot at all.
   */
  lemma SlotStartsMaximal(startTime: int, endTime: int, duration: int)
    requires duration > 0
    ensures var n := |SlotStarts(startTime, endTime, duration)|;
      && (startTime <= endTime ==> startTime + n * duration <= endTime < startTime + (n + 1) * duration)
      && (endTime - startTime < duration ==> n == 0)
  {
    if startTime <= endTime {
      DivBounds(endTime - startTime, duration);
      if endTime - startTime < duration {
        DivModUnique(endTime - startTime, duration, 0, endTime - startTime);
      }
    }
  }

  /** A multiple that fits under the dividend is at most the quotient. */
  lemma DivLowerBound(a: int, m: int, c: int)
    requires m > 0 && c >= 0 && c * m <= a
    ensures c <= a / m
  {
    DivBounds(a, m);
    if c > a / m {
      MulMono(a / m + 1, c, m);
    }
  }

  /** The k-th step from the start is generated when its slot fits. */
  lemma SlotStartsContains(startTime: int, endTime: int, duration: int, k: int)
    requires duration > 0 && k >= 0 && startTime + k * duration + duration <= endTime
    ensures startTime + k * duration in SlotStarts(startTime, endTime, duration)
  {
    assert (k + 1) * duration == k * duration + duration;
    DivLowerBound(endTime - startTime, duration, k + 1);
    var r := SlotStarts(startTime, endTime, duration);
    assert r[k] == startTime + k * duration;
  }

  /** A time is generated exactly when it is a whole number of slots after the start and its slot fits. */
  lemma SlotStartsMembership(startTime: int, endTime: int, duration: int, t: int)
    requires duration > 0
    ensures t in SlotStarts(startTime, endTime, duration)
        <==> startTime <= t && t + duration <= endTime && (t - startTime) % duration == 0
  {
    var r := SlotStarts(startTime, endTime, duration);
    if t in r {
      SlotStartsFit(startTime, endTime, duration);
      var k :| 0 <= k < |r| && r[k] == t;
      DivModUnique(t - startTime, duration, k, 0);
    }
    if startTime <= t && t + duration <= endTime && (t - startTime) % duration == 0 {
      var k := (t - startTime) / duration;
      assert t - startTime == k * duration;
      SlotStartsContains(startTime, endTime, duration, k);
    }
  }

  /** When the duration divides the range evenly, the slots tile it exactly. */
  lemma SlotStartsTile(startTime: int, endTime: int, duration: int)
    requires duration > 0 && startTime <= endTime && (endTime - startTime) % duration == 0
    ensures |SlotStarts(startTime, endTime, duration)| * duration == endTime - startTime
  {
    var a := endTime - startTime;
    assert a == (a / duration) * duration + a % duration;
  }

  // ===========================================================================
  // Template resolver: recurring applicability

  /**
   * `_recurring_applies`: not before the anchor date, on the template's
   * weekday, and a whole number of weeks since the anchor that is a multiple
   * of the interval.
   */
  predicate RecurringApplies(s: RecurringSchedule, target: int)
    requires s.intervalWeeks >= 1
    ensures RecurringApplies(s, target) ==> s.startDate <= target && Weekday(target) == s.weekday
    ensures target == s.startDate && Weekday(target) == s.weekday ==> RecurringApplies(s, target)
  {
    if target < s.startDate then false
    else if Weekday(target) != s.weekday then false
    else ((target - s.startDate) / 7) % s.intervalWeeks == 0
  }

  /**
   * For a template whose anchor falls on its weekday (what validation
   * guarantees), it applies exactly on the anchor and every
   * 7 * intervalWeeks days after it.
   */
  lemma RecurringAppliesCadence(s: RecurringSchedule, target: int)
    requires s.intervalWeeks >= 1 && Weekday(s.startDate) == s.weekday
    ensures RecurringApplies(s, target)
        <==> target >= s.startDate && (target - s.startDate) % (7 * s.intervalWeeks) == 0
  {
    var delta := target - s.startDate;
    var n := s.intervalWeeks;
    if delta >= 0 {
      SameWeekday(target, s.startDate);
      var w := delta / 7;
      var j, r := w / n, w % n;
      assert w == j * n + r;
      if delta % 7 == 0 {
        assert delta == 7 * w;
        DivModUnique(delta, 7 * n, j, 7 * r);
      } else {
        var d := delta % 7;
        assert delta == j * (7 * n) + (7 * r + d);
        MulMono(r + 1, n, 7);
        DivModUnique(delta, 7 * n, j, 7 * r + d);
      }
    }
  }

  /** A biweekly template anchored on Monday 2024-01-01. */
  lemma BiweeklyExample()
    ensures var s := RecurringSchedule(1, 1, 0, 2, Ordinal(2024, 1, 1), 8 * 60, 10 * 60, 30);
      && RecurringApplies(s, Ordinal(2024, 1, 15))
      && RecurringApplies(s, Ordinal(2024, 1, 29))
      && !RecurringApplies(s, Ordinal(2024, 1, 8))
      && !RecurringApplies(s, Ordinal(2024, 1, 22))
      && !RecurringApplies(s, Ordinal(2023, 12, 18))
      && !RecurringApplies(s, Ordinal(2024, 1, 16))
  {
  }

  /** Once a template applies, it applies again every interval. */
  lemma RecurringAppliesPeriodic(s: RecurringSchedule, target: int)
    requires s.intervalWeeks >= 1 && RecurringApplies(s, target)
    ensures RecurringApplies(s, target + 7 * s.intervalWeeks)
  {
    var n := s.intervalWeeks;
    var w := (target - s.startDate) / 7;
    SameWeekday(target + 7 * n, target);
    DivModUnique(target + 7 * n - s.startDate, 7, w + n, (target - s.startDate) % 7);
    DivModUnique(w + n, n, w / n + 1, 0);
  }

  // ===========================================================================
  // Template resolver: selection and merge

  /** A recurring row of the query's doctor and clinic can be evaluated and expanded. */
  predicate RecurringUsable(s: RecurringSchedule, q: Query) {
    s.doctor == q.doctor && s.clinic == q.clinic ==> s.intervalWeeks >= 1 && s.slotDuration > 0
  }

  predicate OccasionalUsable(o: OccasionalSchedule, q: Query) {
    o.doctor == q.doctor && o.clinic == q.clinic && o.date == q.date ==> o.slotDuration > 0
  }

  /** A partial closure of the query's doctor, clinic and date carries both times. */
  predicate ClosureUsable(w: ClosedWindow, q: Query) {
    (w.doctor == q.doctor && w.clinic == q.clinic && w.date == q.date && !w.isFullDay)
    ==> w.startTime.Some? && w.endTime.Some?
  }

  /**
   * What the engine needs of the stored rows it reads (each guaranteed by
   * the field validators and `clean`): rows breaking it may make the source
   * divide by zero, loop forever, or compare a missing closure time.
   */
  predicate Ready(q: Query, rs: seq<RecurringSchedule>, os: seq<OccasionalSchedule>, ws: seq<ClosedWindow>) {
    && (forall s | s in rs :: RecurringUsable(s, q))
    && (forall o | o in os :: OccasionalUsable(o, q))
    && (forall w | w in ws :: ClosureUsable(w, q))
  }

  /** Rows that pass their model's validation give the engine what it needs, for every query. */
  lemma ValidatedRowsReady(q: Query, rs: seq<RecurringSchedule>, os: seq<OccasionalSchedule>, ws: seq<ClosedWindow>)
    requires forall s | s in rs :: ValidateRecurring(s) == {}
    requires forall o | o in os :: ValidateOccasional(o) == {}
    requires forall w | w in ws :: ClosedWindowWellFormed(w)
    ensures Ready(q, rs, os, ws)
  {
    forall s | s in rs
      ensures RecurringUsable(s, q)
    {
      RecurringValidation(s);
    }
    forall o | o in os
      ensures OccasionalUsable(o, q)
    {
      OccasionalValidation(o);
    }
  }

  predicate RecurringSelected(s: RecurringSchedule, q: Query)
    requires RecurringUsable(s, q)
  {
    s.doctor == q.doctor && s.clinic == q.clinic && RecurringApplies(s, q.date)
  }

  predicate OccasionalSelected(o: OccasionalSchedule, q: Query) {
    o.doctor == q.doctor && o.clinic == q.clinic && o.date == q.date
  }

  /** A time range with the slot duration to cut it into. */
  datatype Window = Window(startTime: int, endTime: int, duration: int)

  predicate Expandable(ws: seq<Window>) {
    forall w | w in ws :: w.duration > 0
  }

  function Starts(w: Window): seq<int>
    requires w.duration > 0
  {
    SlotStarts(w.startTime, w.endTime, w.duration)
  }

  /** The windows of the applicable recurring templates, in table order. */
  function RecurringWindows(rs: seq<RecurringSchedule>, q: Query): (ws: seq<Window>)
    requires forall s | s in rs :: RecurringUsable(s, q)
    ensures Expandable(ws)
    ensures forall w :: w in ws <==>
      exists s :: s in rs && RecurringSelected(s, q) && w == Window(s.startTime, s.endTime, s.slotDuration)
  {
    if rs == [] then []
    else
      var s := rs[|rs| - 1];
      assert forall x | x in rs[..|rs| - 1] :: x in rs;
      RecurringWindows(rs[..|rs| - 1], q)
        + (if RecurringSelected(s, q) then [Window(s.startTime, s.endTime, s.slotDuration)] else [])
  }

  /** The windows of the query date's one-off templates, in table order. */
  function OccasionalWindows(os: seq<OccasionalSchedule>, q: Query): (ws: seq<Window>)
    requires forall o | o in os :: OccasionalUsable(o, q)
    ensures Expandable(ws)
    ensures forall w :: w in ws <==>
      exists o :: o in os && OccasionalSelected(o, q) && w == Window(o.startTime, o.endTime, o.slotDuration)
  {
    if os == [] then []
    else
      var o := os[|os| - 1];
      assert OccasionalUsable(o, q);
      assert forall x | x in os[..|os| - 1] :: x in os;
      OccasionalWindows(os[..|os| - 1], q)
        + (if OccasionalSelected(o, q) then [Window(o.startTime, o.endTime, o.slotDuration)] else [])
  }

  /** The order templates are written into the candidate map: recurring ones, then one-off ones. */
  function MergeOrder(q: Query, rs: seq<RecurringSchedule>, os: seq<OccasionalSchedule>): (ws: seq<Window>)
    requires Ready(q, rs, os, [])
    ensures Expandable(ws)
  {
    RecurringWindows(rs, q) + OccasionalWindows(os, q)
  }

  /** `raw_slots[t] = duration` for each t of `starts`, in order. */
  function WriteSlots(m: map<int, int>, starts: seq<int>, duration: int): map<int, int> {
    if starts == [] then m
    else WriteSlots(m, starts[..|starts| - 1], duration)[starts[|starts| - 1] := duration]
  }

  /** Writing a run of starts adds exactly those keys, all with the written duration. */
  lemma {:induction false} WriteSlotsEffect(m: map<int, int>, starts: seq<int>, duration: int)
    ensures var r := WriteSlots(m, starts, duration);
      && (forall t :: t in r <==> t in m || t in starts)
      && (forall t | t in starts :: r[t] == duration)
      && (forall t | t in m && t !in starts :: r[t] == m[t])
  {
    if starts != [] {
      var init := starts[..|starts| - 1];
      WriteSlotsEffect(m, init, duration);
      assert starts == init + [starts[|starts| - 1]];
    }
  }

  /** Expand every window in order into the map; a later window overwrites an earlier one's start. */
  function MergeWindows(m: map<int, int>, ws: seq<Window>): map<int, int>
    requires Expandable(ws)
  {
    if ws == [] then m
    else
      var w := ws[|ws| - 1];
      WriteSlots(MergeWindows(m, ws[..|ws| - 1]), Starts(w), w.duration)
  }

  /** Merging two runs of windows one after the other is merging their concatenation. */
  lemma {:induction false} MergeWindowsAppend(m: map<int, int>, ws1: seq<Window>, ws2: seq<Window>)
    requires Expandable(ws1) && Expandable(ws2)
    ensures Expandable(ws1 + ws2)
    ensures MergeWindows(m, ws1 + ws2) == MergeWindows(MergeWindows(m, ws1), ws2)
  {
    if ws2 == [] {
      assert ws1 + ws2 == ws1;
    } else {
      var init := ws2[..|ws2| - 1];
      MergeWindowsAppend(m, ws1, init);
      assert (ws1 + ws2)[..|ws1 + ws2| - 1] == ws1 + init;
      assert (ws1 + ws2)[|ws1 + ws2| - 1] == ws2[|ws2| - 1];
    }
  }

  /** The merged keys are the starting keys together with every start of every window. */
  lemma {:induction false} MergeWindowsKeys(m: map<int, int>, ws: seq<Window>, t: int)
    requires Expandable(ws)
    ensures t in MergeWindows(m, ws) <==> t in m || exists w :: w in ws && t in Starts(w)
  {
    if ws != [] {
      var init, w := ws[..|ws| - 1], ws[|ws| - 1];
      MergeWindowsKeys(m, init, t);
      WriteSlotsEffect(MergeWindows(m, init), Starts(w), w.duration);
      assert ws == init + [w];
    }
  }

  /** A start keeps the duration of the last window that produces it. */
  lemma {:induction false} MergeWindowsLastWins(m: map<int, int>, ws: seq<Window>, i: int, t: int)
    requires Expandable(ws) && 0 <= i < |ws| && t in Starts(ws[i])
    requires forall j :: i < j < |ws| ==> t !in Starts(ws[j])
    ensures t in MergeWindows(m, ws) && MergeWindows(m, ws)[t] == ws[i].duration
  {
    var init, w := ws[..|ws| - 1], ws[|ws| - 1];
    WriteSlotsEffect(MergeWindows(m, init), Starts(w), w.duration);
    if i < |ws| - 1 {
      MergeWindowsLastWins(m, init, i, t);
    }
  }

  /** A start no window produces keeps its original duration. */
  lemma {:induction false} MergeWindowsUntouched(m: map<int, int>, ws: seq<Window>, t: int)
    requires Expandable(ws) && t in m
    requires forall w | w in ws :: t !in Starts(w)
    ensures t in MergeWindows(m, ws) && MergeWindows(m, ws)[t] == m[t]
  {
    if ws != [] {
      var init, w := ws[..|ws| - 1], ws[|ws| - 1];
      MergeWindowsUntouched(m, init, t);
      WriteSlotsEffect(MergeWindows(m, init), Starts(w), w.duration);
    }
  }

  /** The candidate map: start time -> slot duration of every applicable template. */
  function Candidates(q: Query, rs: seq<RecurringSchedule>, os: seq<OccasionalSchedule>): map<int, int>
    requires Ready(q, rs, os, [])
  {
    MergeWindows(map[], MergeOrder(q, rs, os))
  }

  /**
   * The candidate starts are exactly the union of the starts of every
   * applicable recurring template and every one-off template of the date.
   */
  lemma CandidateKeys(q: Query, rs: seq<RecurringSchedule>, os: seq<OccasionalSchedule>, t: int)
    requires Ready(q, rs, os, [])
    ensures t in Candidates(q, rs, os) <==>
      || (exists s :: s in rs && RecurringSelected(s, q) && t in SlotStarts(s.startTime, s.endTime, s.slotDuration))
      || (exists o :: o in os && OccasionalSelected(o, q) && t in SlotStarts(o.startTime, o.endTime, o.slotDuration))
  {
    var rw, ow := RecurringWindows(rs, q), OccasionalWindows(os, q);
    MergeWindowsKeys(map[], rw + ow, t);
    if t in Candidates(q, rs, os) {
      var w :| w in rw + ow && t in Starts(w);
      if w in rw {
        var s :| s in rs && RecurringSelected(s, q) && w == Window(s.startTime, s.endTime, s.slotDuration);
      } else {
        var o :| o in os && OccasionalSelected(o, q) && w == Window(o.startTime, o.endTime, o.slotDuration);
      }
    }
    if exists s :: s in rs && RecurringSelected(s, q) && t in SlotStarts(s.startTime, s.endTime, s.slotDuration) {
      var s :| s in rs && RecurringSelected(s, q) && t in SlotStarts(s.startTime, s.endTime, s.slotDuration);
      assert Window(s.startTime, s.endTime, s.slotDuration) in rw + ow;
    }
    if exists o :: o in os && OccasionalSelected(o, q) && t in SlotStarts(o.startTime, o.endTime, o.slotDuration) {
      var o :| o in os && OccasionalSelected(o, q) && t in SlotStarts(o.startTime, o.endTime, o.slotDuration);
      assert Window(o.startTime, o.endTime, o.slotDuration) in rw + ow;
    }
  }

  /**
   * Last write wins: a candidate start carries the duration of the last
   * window in merge order that produces it.
   */
  lemma CandidateLastWriteWins(q: Query, rs: seq<RecurringSchedule>, os: seq<OccasionalSchedule>, i: int, t: int)
    requires Ready(q, rs, os, [])
    requires var ws := MergeOrder(q, rs, os);
      0 <= i < |ws| && t in Starts(ws[i]) && forall j :: i < j < |ws| ==> t !in Starts(ws[j])
    ensures t in Candidates(q, rs, os) && Candidates(q, rs, os)[t] == MergeOrder(q, rs, os)[i].duration
  {
    MergeWindowsLastWins(map[], MergeOrder(q, rs, os), i, t);
  }

  /** A start some window produces carries the duration of one of the windows producing it. */
  lemma {:induction false} MergeWindowsProducer(m: map<int, int>, ws: seq<Window>, t: int)
    requires Expandable(ws) && exists w :: w in ws && t in Starts(w)
    ensures t in MergeWindows(m, ws)
    ensures exists w :: w in ws && t in Starts(w) && MergeWindows(m, ws)[t] == w.duration
  {
    var init, last := ws[..|ws| - 1], ws[|ws| - 1];
    assert ws == init + [last];
    WriteSlotsEffect(MergeWindows(m, init), Starts(last), last.duration);
    if t !in Starts(last) {
      MergeWindowsProducer(m, init, t);
      var w :| w in init && t in Starts(w) && MergeWindows(m, init)[t] == w.duration;
      assert w in ws;
    }
  }

  /**
   * One-off templates overwrite recurring ones: a start produced by some
   * one-off template carries the duration of a one-off template producing it.
   */
  lemma OneOffOverridesRecurring(q: Query, rs: seq<RecurringSchedule>, os: seq<OccasionalSchedule>, t: int)
    requires Ready(q, rs, os, [])
    requires exists o :: o in os && OccasionalSelected(o, q) && t in SlotStarts(o.startTime, o.endTime, o.slotDuration)
    ensures t in Candidates(q, rs, os)
    ensures exists o :: o in os && OccasionalSelected(o, q) && t in SlotStarts(o.startTime, o.endTime, o.slotDuration)
                        && Candidates(q, rs, os)[t] == o.slotDuration
  {
    var rw, ow := RecurringWindows(rs, q), OccasionalWindows(os, q);
    var o0 :| o0 in os && OccasionalSelected(o0, q) && t in SlotStarts(o0.startTime, o0.endTime, o0.slotDuration);
    assert Window(o0.startTime, o0.endTime, o0.slotDuration) in ow;
    MergeWindowsAppend(map[], rw, ow);
    var m := MergeWindows(map[], rw);
    MergeWindowsProducer(m, ow, t);
    var w :| w in ow && t in Starts(w) && MergeWindows(m, ow)[t] == w.duration;
    var o :| o in os && OccasionalSelected(o, q) && w == Window(o.startTime, o.endTime, o.slotDuration);
  }

  // ===========================================================================
  // Closure filter

  predicate ClosedSelected(w: ClosedWindow, q: Query) {
    w.doctor == q.doctor && w.clinic == q.clinic && w.date == q.date
  }

  /** Half-open overlap of the slot [slotStart, slotStart + duration) with [windowStart, windowEnd). */
  predicate Overlaps(slotStart: int, duration: int, windowStart: int, windowEnd: int) {
    slotStart < windowEnd && slotStart + duration > windowStart
  }

  predicate HasFullDayClosure(ws: seq<ClosedWindow>, q: Query) {
    exists w :: w in ws && ClosedSelected(w, q) && w.isFullDay
  }

  /** The slot starting at `t` overlaps the partial closure `w` of the query date. */
  predicate BlockedBy(t: int, duration: int, w: ClosedWindow, q: Query) {
    && ClosedSelected(w, q) && !w.isFullDay && w.startTime.Some? && w.endTime.Some?
    && Overlaps(t, duration, w.startTime.value, w.endTime.value)
  }

  predicate Blocked(t: int, duration: int, ws: seq<ClosedWindow>, q: Query) {
    exists w :: w in ws && BlockedBy(t, duration, w, q)
  }

  /**
   * Reference definition of the closure step: a full-day closure empties the
   * day; otherwise every slot overlapping some partial closure is removed.
   */
  function ApplyClosures(m: map<int, int>, ws: seq<ClosedWindow>, q: Query): map<int, int> {
    if HasFullDayClosure(ws, q) then map[]
    else map t | t in m && !Blocked(t, m[t], ws, q) :: m[t]
  }

  /**
   * Closures are cumulative: applying two batches one after the other is
   * applying them together (the removals are a union).
   */
  lemma ClosuresCumulative(m: map<int, int>, ws1: seq<ClosedWindow>, ws2: seq<ClosedWindow>, q: Query)
    ensures ApplyClosures(m, ws1 + ws2, q) == ApplyClosures(ApplyClosures(m, ws1, q), ws2, q)
  {
    var ws := ws1 + ws2;
    if HasFullDayClosure(ws1, q) {
      var w :| w in ws1 && ClosedSelected(w, q) && w.isFullDay;
      assert w in ws;
    } else if HasFullDayClosure(ws2, q) {
      var w :| w in ws2 && ClosedSelected(w, q) && w.isFullDay;
      assert w in ws;
    } else {
      assert !HasFullDayClosure(ws, q);
      var m1 := ApplyClosures(m, ws1, q);
      forall t | t in m
        ensures Blocked(t, m[t], ws, q) <==> Blocked(t, m[t], ws1, q) || Blocked(t, m[t], ws2, q)
      {
        if Blocked(t, m[t], ws, q) {
          var w :| w in ws && BlockedBy(t, m[t], w, q);
          assert w in ws1 || w in ws2;
        }
        if Blocked(t, m[t], ws1, q) {
          var w :| w in ws1 && BlockedBy(t, m[t], w, q);
          assert w in ws;
        }
        if Blocked(t, m[t], ws2, q) {
          var w :| w in ws2 && BlockedBy(t, m[t], w, q);
          assert w in ws;
        }
      }
    }
  }

  /** The closure step only removes slots, and keeps the duration of those it keeps. */
  lemma ClosuresOnlyRemove(m: map<int, int>, ws: seq<ClosedWindow>, q: Query, t: int)
    ensures t in ApplyClosures(m, ws, q) ==> t in m && ApplyClosures(m, ws, q)[t] == m[t]
    ensures t in m && !HasFullDayClosure(ws, q) && !Blocked(t, m[t], ws, q) ==> t in ApplyClosures(m, ws, q)
  {
  }

  /** Applying the closures twice removes nothing more. */
  lemma ClosuresIdempotent(m: map<int, int>, ws: seq<ClosedWindow>, q: Query)
    ensures ApplyClosures(ApplyClosures(m, ws, q), ws, q) == ApplyClosures(m, ws, q)
  {
  }

  /**
   * A partial closure 12:00-13:00 against 30-minute slots: the one starting
   * 11:45 overlaps it and goes; 11:30 (ends at the closure's start) and 13:00
   * (starts at its end) only touch it and stay.
   */
  lemma BoundaryTouchingSlotsSurvive()
    ensures var q := Query(1, 1, Ordinal(2024, 3, 4));
      var w := ClosedWindow(1, 1, Ordinal(2024, 3, 4), false, Some(12 * 60), Some(13 * 60));
      ApplyClosures(map[11 * 60 + 30 := 30, 11 * 60 + 45 := 30, 13 * 60 := 30], [w], q)
        == map[11 * 60 + 30 := 30, 13 * 60 := 30]
  {
    var q := Query(1, 1, Ordinal(2024, 3, 4));
    var w := ClosedWindow(1, 1, Ordinal(2024, 3, 4), false, Some(12 * 60), Some(13 * 60));
    assert BlockedBy(11 * 60 + 45, 30, w, q);
    assert !Blocked(11 * 60 + 30, 30, [w], q);
    assert !Blocked(13 * 60, 30, [w], q);
  }

  // ===========================================================================
  // Booking reconciler

  /** An encounter occupies the query's slots when it matches doctor, clinic and date and is active. */
  predicate Occupies(e: Encounter, q: Query) {
    e.doctor == q.doctor && e.clinic == q.clinic && e.date == q.date && IsActive(e.status)
  }

  /** The times of day taken by active bookings. */
  function BookedTimes(es: seq<Encounter>, q: Query): set<int> {
    set e | e in es && Occupies(e, q) :: e.time
  }

  /** `booked_map`: time -> the encounter written last for that time. */
  function BookedMap(es: seq<Encounter>, q: Query): (r: map<int, Encounter>)
    ensures r.Keys == BookedTimes(es, q)
    ensures forall t | t in r :: r[t] in es && Occupies(r[t], q) && r[t].time == t
  {
    if es == [] then map[]
    else
      var init, e := es[..|es| - 1], es[|es| - 1];
      assert es == init + [e];
      var m := BookedMap(init, q);
      if Occupies(e, q) then m[e.time := e] else m
  }

  /** Several active bookings at one time: the one met last is the one shown. */
  lemma {:induction false} BookedMapLastWins(es: seq<Encounter>, q: Query, i: int)
    requires 0 <= i < |es| && Occupies(es[i], q)
    requires forall j :: i < j < |es| ==> !(Occupies(es[j], q) && es[j].time == es[i].time)
    ensures BookedMap(es, q)[es[i].time] == es[i]
  {
    if i < |es| - 1 {
      BookedMapLastWins(es[..|es| - 1], q, i);
    }
  }

  // ===========================================================================
  // Sorting

  lemma NonEmptyHasElement(s: set<int>)
    requires s != {}
    ensures exists x :: x in s
  {
    if forall x :: x !in s {
      assert false;
    }
  }

  lemma {:induction false} LeastExists(s: set<int>)
    requires s != {}
    ensures exists x :: x in s && forall y | y in s :: x <= y
  {
    NonEmptyHasElement(s);
    var x :| x in s;
    if s != {x} {
      var rest := s - {x};
      assert rest != {};
      LeastExists(rest);
      var y :| y in rest && forall z | z in rest :: y <= z;
      var least := if y < x then y else x;
      forall z | z in s
        ensures least <= z
      {
        if z != x {
          assert z in rest;
        }
      }
    } else {
      assert forall z | z in s :: z == x;
    }
  }

  /** `sorted(...)` of a set of times: its elements in ascending order. */
  function SortedTimes(s: set<int>): (r: seq<int>)
    ensures StrictlyIncreasing(r)
    ensures forall t :: t in r <==> t in s
    decreases s
  {
    if s == {} then []
    else
      LeastExists(s);
      var least :| least in s && forall y | y in s :: least <= y;
      [least] + SortedTimes(s - {least})
  }

  /** A non-empty sequence holds its first element. */
  lemma HeadIsElement(a: seq<int>)
    ensures a != [] ==> a[0] in a
  {
  }

  /** Two ascending sequences with the same elements are the same sequence. */
  lemma {:induction false} StrictlyIncreasingUnique(a: seq<int>, b: seq<int>)
    requires StrictlyIncreasing(a) && StrictlyIncreasing(b)
    requires forall t :: t in a <==> t in b
    ensures a == b
  {
    if a != [] && b != [] {
      assert a[0] in b && b[0] in a;
      var i :| 0 <= i < |b| && b[i] == a[0];
      var j :| 0 <= j < |a| && a[j] == b[0];
      assert a[0] == b[0];
      forall t
        ensures t in a[1..] <==> t in b[1..]
      {
        if t in a[1..] {
          var k :| 1 <= k < |a| && a[k] == t;
          assert t in b && t != b[0];
        }
        if t in b[1..] {
          var k :| 1 <= k < |b| && b[k] == t;
          assert t in a && t != a[0];
        }
      }
      StrictlyIncreasingUnique(a[1..], b[1..]);
      assert a == [a[0]] + a[1..];
      assert b == [b[0]] + b[1..];
    } else {
      HeadIsElement(a);
      HeadIsElement(b);
    }
  }

  // ===========================================================================
  // The two public reads

  /** The candidates that survive the closures: the shared first two steps of both reads. */
  function Surviving(q: Query, rs: seq<RecurringSchedule>, os: seq<OccasionalSchedule>, ws: seq<ClosedWindow>): map<int, int>
    requires Ready(q, rs, os, ws)
  {
    ApplyClosures(Candidates(q, rs, os), ws, q)
  }

  /** `get_available_slots`: surviving starts not taken by an active booking, ascending. */
  function AvailableSlots(q: Query, rs: seq<RecurringSchedule>, os: seq<OccasionalSchedule>,
                          ws: seq<ClosedWindow>, es: seq<Encounter>): seq<int>
    requires Ready(q, rs, os, ws)
  {
    SortedTimes(Surviving(q, rs, os, ws).Keys - BookedTimes(es, q))
  }

  /** An entry of `get_all_slots`; a booked one carries the encounter's id and its patient. */
  datatype SlotEntry = Available(time: int) | Booked(time: int, encounterId: nat, patient: nat)

  function Annotate(t: int, booked: map<int, Encounter>): SlotEntry {
    if t in booked then Booked(t, booked[t].id, booked[t].patient) else Available(t)
  }

  /** `get_all_slots`: every surviving start, ascending, marked booked or available. */
  function AllSlots(q: Query, rs: seq<RecurringSchedule>, os: seq<OccasionalSchedule>,
                    ws: seq<ClosedWindow>, es: seq<Encounter>): seq<SlotEntry>
    requires Ready(q, rs, os, ws)
  {
    var times := SortedTimes(Surviving(q, rs, os, ws).Keys);
    var booked := BookedMap(es, q);
    seq(|times|, i requires 0 <= i < |times| => Annotate(times[i], booked))
  }

  function EntryTimes(entries: seq<SlotEntry>): seq<int> {
    seq(|entries|, i requires 0 <= i < |entries| => entries[i].time)
  }

  /** The times of the entries marked available, in order. */
  function AvailableTimes(entries: seq<SlotEntry>): (r: seq<int>)
    ensures forall t :: t in r <==> Available(t) in entries
  {
    if entries == [] then []
    else
      assert forall t :: Available(t) in entries <==> entries[0] == Available(t) || Available(t) in entries[1..];
      (if entries[0].Available? then [entries[0].time] else []) + AvailableTimes(entries[1..])
  }

  /** Keeping only the available entries keeps ascending times ascending. */
  lemma {:induction false} AvailableTimesIncreasing(entries: seq<SlotEntry>)
    requires StrictlyIncreasing(EntryTimes(entries))
    ensures StrictlyIncreasing(AvailableTimes(entries))
  {
    if entries != [] {
      assert EntryTimes(entries[1..]) == EntryTimes(entries)[1..];
      AvailableTimesIncreasing(entries[1..]);
      var rest := AvailableTimes(entries[1..]);
      forall t | t in rest
        ensures entries[0].time < t
      {
        var k :| 0 <= k < |entries[1..]| && entries[1..][k] == Available(t);
        assert EntryTimes(entries)[k + 1] == t;
        assert EntryTimes(entries)[0] == entries[0].time;
      }
      var r := AvailableTimes(entries);
      if entries[0].Available? {
        assert r == [entries[0].time] + rest;
        forall i, j | 0 <= i < j < |r|
          ensures r[i] < r[j]
        {
          assert r[j] == rest[j - 1];
          assert rest[j - 1] in rest;
          if i > 0 {
            assert r[i] == rest[i - 1];
          }
        }
      } else {
        assert r == rest;
      }
    }
  }

  /**
   * `get_available_slots` is ascending, and a time is in it exactly when it
   * is a surviving candidate no active booking starts at; every one is a
   * candidate of some template.
   */
  lemma AvailableSlotsMeaning(q: Query, rs: seq<RecurringSchedule>, os: seq<OccasionalSchedule>,
                              ws: seq<ClosedWindow>, es: seq<Encounter>, t: int)
    requires Ready(q, rs, os, ws)
    ensures StrictlyIncreasing(AvailableSlots(q, rs, os, ws, es))
    ensures t in AvailableSlots(q, rs, os, ws, es) <==> t in Surviving(q, rs, os, ws) && t !in BookedTimes(es, q)
    ensures t in AvailableSlots(q, rs, os, ws, es) ==> t in Candidates(q, rs, os)
  {
  }

  /**
   * `get_all_slots` lists every surviving start once, ascending; an entry is
   * booked exactly when an active booking starts at its time, and then it
   * names such a booking.
   */
  lemma AllSlotsMeaning(q: Query, rs: seq<RecurringSchedule>, os: seq<OccasionalSchedule>,
                        ws: seq<ClosedWindow>, es: seq<Encounter>)
    requires Ready(q, rs, os, ws)
    ensures var all := AllSlots(q, rs, os, ws, es);
      && StrictlyIncreasing(EntryTimes(all))
      && (forall t :: t in EntryTimes(all) <==> t in Surviving(q, rs, os, ws))
      && (forall i | 0 <= i < |all| :: all[i].Booked? <==> all[i].time in BookedTimes(es, q))
      && (forall i | 0 <= i < |all| && all[i].Booked? ::
            exists e :: e in es && Occupies(e, q) && e.time == all[i].time
                        && e.id == all[i].encounterId && e.patient == all[i].patient)
  {
    var all := AllSlots(q, rs, os, ws, es);
    var times := SortedTimes(Surviving(q, rs, os, ws).Keys);
    assert EntryTimes(all) == times;
    var booked := BookedMap(es, q);
    forall i | 0 <= i < |all| && all[i].Booked?
      ensures exists e :: e in es && Occupies(e, q) && e.time == all[i].time
                          && e.id == all[i].encounterId && e.patient == all[i].patient
    {
      var e := booked[times[i]];
      assert e in es && Occupies(e, q) && e.time == all[i].time;
    }
  }

  /** The times `get_all_slots` marks available are exactly `get_available_slots`. */
  lemma AllSlotsAgreeWithAvailable(q: Query, rs: seq<RecurringSchedule>, os: seq<OccasionalSchedule>,
                                   ws: seq<ClosedWindow>, es: seq<Encounter>)
    requires Ready(q, rs, os, ws)
    ensures AvailableTimes(AllSlots(q, rs, os, ws, es)) == AvailableSlots(q, rs, os, ws, es)
  {
    var all := AllSlots(q, rs, os, ws, es);
    var times := SortedTimes(Surviving(q, rs, os, ws).Keys);
    var booked := BookedMap(es, q);
    assert EntryTimes(all) == times;
    var a, b := AvailableTimes(all), AvailableSlots(q, rs, os, ws, es);
    AvailableTimesIncreasing(all);
    forall t
      ensures t in a <==> t in b
    {
      if Available(t) in all {
        var i :| 0 <= i < |all| && all[i] == Available(t);
        assert times[i] == t && t !in booked;
      }
      if t in b {
        var i :| 0 <= i < |times| && times[i] == t;
        assert all[i] == Available(t);
      }
    }
    StrictlyIncreasingUnique(a, b);
  }

  /** With no template producing a slot, both reads are empty whatever the closures and bookings. */
  lemma NoTemplatesNoSlots(q: Query, rs: seq<RecurringSchedule>, os: seq<OccasionalSchedule>,
                           ws: seq<ClosedWindow>, es: seq<Encounter>)
    requires Ready(q, rs, os, ws) && Candidates(q, rs, os) == map[]
    ensures AvailableSlots(q, rs, os, ws, es) == [] && AllSlots(q, rs, os, ws, es) == []
  {
    assert Surviving(q, rs, os, ws) == map[];
  }

  /** A full-day closure of the date empties both reads whatever the templates and bookings. */
  lemma FullDayClosureEmptiesDay(q: Query, rs: seq<RecurringSchedule>, os: seq<OccasionalSchedule>,
                                 ws: seq<ClosedWindow>, es: seq<Encounter>)
    requires Ready(q, rs, os, ws) && HasFullDayClosure(ws, q)
    ensures AvailableSlots(q, rs, os, ws, es) == [] && AllSlots(q, rs, os, ws, es) == []
  {
  }

  /** Two ascending sequences of times, spelled out. */
  lemma SortedTimesOfThree(a: int, b: int, c: int)
    requires a < b < c
    ensures SortedTimes({a, b, c}) == [a, b, c]
  {
    StrictlyIncreasingUnique(SortedTimes({a, b, c}), [a, b, c]);
  }

  lemma SortedTimesOfFour(a: int, b: int, c: int, d: int)
    requires a < b < c < d
    ensures SortedTimes({a, b, c, d}) == [a, b, c, d]
  {
    StrictlyIncreasingUnique(SortedTimes({a, b, c, d}), [a, b, c, d]);
  }

  /** The query, template and booking of the worked example below. */
  function ExampleQuery(): Query {
    Query(7, 3, 738949)  // Monday 2024-03-04
  }

  function ExampleTemplate(): RecurringSchedule {
    RecurringSchedule(7, 3, 0, 1, 738886, 8 * 60, 10 * 60, 30)  // weekly from Monday 2024-01-01
  }

  function ExampleBooking(): Encounter {
    Encounter(11, 42, 7, 3, 738949, 9 * 60, Scheduled)
  }

  lemma ExampleDates()
    ensures ExampleQuery().date == Ordinal(2024, 3, 4) && ExampleTemplate().startDate == Ordinal(2024, 1, 1)
  {
  }

  lemma ExampleWindows()
    ensures Ready(ExampleQuery(), [ExampleTemplate()], [], [])
    ensures MergeOrder(ExampleQuery(), [ExampleTemplate()], []) == [Window(480, 600, 30)]
  {
    var q, s := ExampleQuery(), ExampleTemplate();
    assert RecurringApplies(s, q.date);
    assert [s][..0] == [];
    assert RecurringWindows([s], q) == [Window(480, 600, 30)];
  }

  lemma ExampleCandidates()
    ensures Ready(ExampleQuery(), [ExampleTemplate()], [], [])
    ensures Candidates(ExampleQuery(), [ExampleTemplate()], []) == map[480 := 30, 510 := 30, 540 := 30, 570 := 30]
  {
    ExampleWindows();
    var starts := SlotStarts(480, 600, 30);
    assert starts == [480, 510, 540, 570];
    var w := Window(480, 600, 30);
    assert [w][..0] == [];
    assert MergeWindows(map[], [w]) == WriteSlots(map[], starts, 30);
    var r := WriteSlots(map[], starts, 30);
    WriteSlotsEffect(map[], starts, 30);
    var expected := map[480 := 30, 510 := 30, 540 := 30, 570 := 30];
    forall t
      ensures t in r <==> t in expected
      ensures t in r ==> r[t] == expected[t]
    {
      assert t in starts <==> t == 480 || t == 510 || t == 540 || t == 570;
    }
  }

  lemma ExampleSurviving()
    ensures Ready(ExampleQuery(), [ExampleTemplate()], [], [])
    ensures Surviving(ExampleQuery(), [ExampleTemplate()], [], []).Keys == {480, 510, 540, 570}
  {
    ExampleCandidates();
  }

  lemma ExampleBookings()
    ensures BookedTimes([ExampleBooking()], ExampleQuery()) == {540}
    ensures BookedMap([ExampleBooking()], ExampleQuery()) == map[540 := ExampleBooking()]
  {
    var e := ExampleBooking();
    assert [e][..0] == [];
  }

  lemma ExampleAvailable()
    ensures Ready(ExampleQuery(), [ExampleTemplate()], [], [])
    ensures AvailableSlots(ExampleQuery(), [ExampleTemplate()], [], [], [ExampleBooking()]) == [480, 510, 570]
  {
    var q, rs, e := ExampleQuery(), [ExampleTemplate()], ExampleBooking();
    ExampleSurviving();
    ExampleBookings();
    var keys := Surviving(q, rs, [], []).Keys;
    assert keys - BookedTimes([e], q) == {480, 510, 570};
    SortedTimesOfThree(480, 510, 570);
  }

  lemma ExampleAnnotations(bm: map<int, Encounter>)
    requires bm == map[540 := ExampleBooking()]
    ensures Annotate(480, bm) == Available(480) && Annotate(510, bm) == Available(510)
    ensures Annotate(540, bm) == Booked(540, 11, 42) && Annotate(570, bm) == Available(570)
  {
  }

  /** Proof step for `ExampleAll`: unfolds `AllSlots` for known sorted starts and booked map. */
  lemma AllSlotsEntries(q: Query, rs: seq<RecurringSchedule>, os: seq<OccasionalSchedule>,
                        ws: seq<ClosedWindow>, es: seq<Encounter>, times: seq<int>, bm: map<int, Encounter>)
    requires Ready(q, rs, os, ws)
    requires SortedTimes(Surviving(q, rs, os, ws).Keys) == times && BookedMap(es, q) == bm
    ensures |AllSlots(q, rs, os, ws, es)| == |times|
    ensures forall i | 0 <= i < |times| :: AllSlots(q, rs, os, ws, es)[i] == Annotate(times[i], bm)
  {
  }

  lemma ExampleAll(q: Query, rs: seq<RecurringSchedule>, es: seq<Encounter>)
    requires q == ExampleQuery() && rs == [ExampleTemplate()] && es == [ExampleBooking()]
    ensures Ready(q, rs, [], [])
    ensures AllSlots(q, rs, [], [], es) == [Available(480), Available(510), Booked(540, 11, 42), Available(570)]
  {
    ExampleSurviving();
    ExampleBookings();
    SortedTimesOfFour(480, 510, 540, 570);
    var bm := map[540 := ExampleBooking()];
    ExampleAnnotations(bm);
    assert A: SortedTimes(Surviving(q, rs, [], []).Keys) == [480, 510, 540, 570];
    assert B: BookedMap(es, q) == bm;
    AllSlotsEntries(q, rs, [], [], es, [480, 510, 540, 570], bm);
    var all := AllSlots(q, rs, [], [], es);
    assert all[0] == Available(480);
    assert all[1] == Available(510);
    assert all[2] == Booked(540, 11, 42);
    assert all[3] == Available(570);
  }

  /**
   * Worked example: Monday 2024-03-04, a weekly template 08:00-10:00 of
   * 30-minute slots and an active booking at 09:00. The candidates are
   * 08:00, 08:30, 09:00, 09:30; 09:00 is booked, the rest are available.
   */
  lemma MondayMorningExample()
    ensures Ready(ExampleQuery(), [ExampleTemplate()], [], [])
    ensures AvailableSlots(ExampleQuery(), [ExampleTemplate()], [], [], [ExampleBooking()]) == [480, 510, 570]
    ensures AllSlots(ExampleQuery(), [ExampleTemplate()], [], [], [ExampleBooking()])
         == [Available(480), Available(510), Booked(540, 11, 42), Available(570)]
  {
    ExampleAvailable();
    ExampleAll(ExampleQuery(), [ExampleTemplate()], [ExampleBooking()]);
  }

  // ===========================================================================
  // The engine's loops

  /**
   * Steps 1a and 1b, shared by both reads: expand every applicable recurring
   * template, then every one-off template of the date, into `raw_slots`.
   */
  method CollectCandidates(q: Query, rs: seq<RecurringSchedule>, os: seq<OccasionalSchedule>)
    returns (raw: map<int, int>)
    requires Ready(q, rs, os, [])
    ensures raw == Candidates(q, rs, os)
  {
    raw := map[];
    for i := 0 to |rs|
      invariant raw == MergeWindows(map[], RecurringWindows(rs[..i], q))
    {
      var s := rs[i];
      assert rs[..i + 1] == rs[..i] + [s];
      assert RecurringUsable(s, q);
      if s.doctor == q.doctor && s.clinic == q.clinic && RecurringApplies(s, q.date) {
        var slots := GenerateTimeSlots(s.startTime, s.endTime, s.slotDuration);
        raw := WriteAll(raw, slots, s.slotDuration);
        var w := Window(s.startTime, s.endTime, s.slotDuration);
        assert RecurringWindows(rs[..i + 1], q) == RecurringWindows(rs[..i], q) + [w];
        MergeWindowsSnoc(map[], RecurringWindows(rs[..i], q), w);
      } else {
        assert RecurringWindows(rs[..i + 1], q) == RecurringWindows(rs[..i], q);
      }
    }
    assert rs[..|rs|] == rs;
    ghost var recurringPart := raw;
    for i := 0 to |os|
      invariant raw == MergeWindows(recurringPart, OccasionalWindows(os[..i], q))
    {
      var o := os[i];
      assert os[..i + 1] == os[..i] + [o];
      assert OccasionalUsable(o, q);
      if o.doctor == q.doctor && o.clinic == q.clinic && o.date == q.date {
        var slots := GenerateTimeSlots(o.startTime, o.endTime, o.slotDuration);
        raw := WriteAll(raw, slots, o.slotDuration);
        var w := Window(o.startTime, o.endTime, o.slotDuration);
        assert OccasionalWindows(os[..i + 1], q) == OccasionalWindows(os[..i], q) + [w];
        MergeWindowsSnoc(recurringPart, OccasionalWindows(os[..i], q), w);
      } else {
        assert OccasionalWindows(os[..i + 1], q) == OccasionalWindows(os[..i], q);
      }
    }
    assert os[..|os|] == os;
    MergeWindowsAppend(map[], RecurringWindows(rs, q), OccasionalWindows(os, q));
  }

  /** The inner loop `for t in slots: raw_slots[t] = duration`. */
  method WriteAll(raw: map<int, int>, slots: seq<int>, duration: int) returns (written: map<int, int>)
    ensures written == WriteSlots(raw, slots, duration)
  {
    written := raw;
    for j := 0 to |slots|
      invariant written == WriteSlots(raw, slots[..j], duration)
    {
      assert slots[..j + 1][..j] == slots[..j];
      written := written[slots[j] := duration];
    }
    assert slots[..|slots|] == slots;
  }

  /** Proof step for `CollectCandidates`: unfolds `MergeWindows` once at the end of the list. */
  lemma MergeWindowsSnoc(m: map<int, int>, ws: seq<Window>, w: Window)
    requires Expandable(ws) && w.duration > 0
    ensures Expandable(ws + [w])
    ensures MergeWindows(m, ws + [w]) == WriteSlots(MergeWindows(m, ws), Starts(w), w.duration)
  {
    assert (ws + [w])[..|ws|] == ws;
  }

  /** Applying one more closure: skip another doctor's or day's, empty on a full day, else drop overlaps. */
  lemma ClosureStep(m: map<int, int>, ws: seq<ClosedWindow>, w: ClosedWindow, q: Query)
    requires !HasFullDayClosure(ws, q)
    ensures !ClosedSelected(w, q) ==> ApplyClosures(m, ws + [w], q) == ApplyClosures(m, ws, q)
    ensures ClosedSelected(w, q) && !w.isFullDay && w.startTime.Some? && w.endTime.Some? ==>
      var kept := ApplyClosures(m, ws, q);
      ApplyClosures(m, ws + [w], q)
        == map t | t in kept && !Overlaps(t, kept[t], w.startTime.value, w.endTime.value) :: kept[t]
  {
    ClosuresCumulative(m, ws, [w], q);
    var kept := ApplyClosures(m, ws, q);
    if !ClosedSelected(w, q) {
      assert forall t | t in kept :: !Blocked(t, kept[t], [w], q);
    } else if !w.isFullDay && w.startTime.Some? && w.endTime.Some? {
      assert !HasFullDayClosure([w], q);
      forall t | t in kept
        ensures Blocked(t, kept[t], [w], q) <==> Overlaps(t, kept[t], w.startTime.value, w.endTime.value)
      {
        if Overlaps(t, kept[t], w.startTime.value, w.endTime.value) {
          assert BlockedBy(t, kept[t], w, q) && w in [w];
        }
      }
    }
  }

  /**
   * Step 2, shared by both reads: walk the date's closures in order; a
   * full-day one ends the walk with nothing left, a partial one collects the
   * overlapping slots into `blocked` and deletes them.
   */
  method RemoveClosures(raw: map<int, int>, ws: seq<ClosedWindow>, q: Query) returns (kept: map<int, int>)
    requires forall w | w in ws :: ClosureUsable(w, q)
    ensures kept == ApplyClosures(raw, ws, q)
  {
    kept := raw;
    for i := 0 to |ws|
      invariant !HasFullDayClosure(ws[..i], q)
      invariant kept == ApplyClosures(raw, ws[..i], q)
    {
      var w := ws[i];
      assert ws[..i + 1] == ws[..i] + [w];
      assert ClosureUsable(w, q);
      ClosureStep(raw, ws[..i], w, q);
      if w.doctor == q.doctor && w.clinic == q.clinic && w.date == q.date {
        if w.isFullDay {
          assert w in ws;
          return map[];
        }
        var windowStart, windowEnd := w.startTime.value, w.endTime.value;
        var blocked: set<int> := {};
        var pending := kept.Keys;
        while pending != {}
          invariant pending <= kept.Keys
          invariant forall t :: t in blocked <==>
            t in kept && t !in pending && Overlaps(t, kept[t], windowStart, windowEnd)
          decreases pending
        {
          var t :| t in pending;
          if t < windowEnd && t + kept[t] > windowStart {
            blocked := blocked + {t};
          }
          pending := pending - {t};
        }
        kept := kept - blocked;
      }
      assert !HasFullDayClosure(ws[..i + 1], q);
    }
    assert ws[..|ws|] == ws;
  }

  /** `get_available_slots`. */
  method GetAvailableSlots(q: Query, rs: seq<RecurringSchedule>, os: seq<OccasionalSchedule>,
                           ws: seq<ClosedWindow>, es: seq<Encounter>) returns (available: seq<int>)
    requires Ready(q, rs, os, ws)
    ensures available == AvailableSlots(q, rs, os, ws, es)
  {
    var raw := CollectCandidates(q, rs, os);
    if |raw| == 0 {
      assert Surviving(q, rs, os, ws) == map[];
      return [];
    }
    raw := RemoveClosures(raw, ws, q);
    if |raw| == 0 {
      return [];
    }
    var bookedTimes := set e | e in es && e.doctor == q.doctor && e.clinic == q.clinic
                                 && e.date == q.date && IsActive(e.status) :: e.time;
    available := SortedTimes(set t | t in raw && t !in bookedTimes);
    assert (set t | t in raw && t !in bookedTimes) == raw.Keys - BookedTimes(es, q);
  }

  /** Step 3 of `get_all_slots`: `booked_map[time] = enc` for each active encounter, in order. */
  method BuildBookedMap(es: seq<Encounter>, q: Query) returns (bookedMap: map<int, Encounter>)
    ensures bookedMap == BookedMap(es, q)
  {
    bookedMap := map[];
    for i := 0 to |es|
      invariant bookedMap == BookedMap(es[..i], q)
    {
      var e := es[i];
      assert es[..i + 1] == es[..i] + [e];
      if e.doctor == q.doctor && e.clinic == q.clinic && e.date == q.date && IsActive(e.status) {
        bookedMap := bookedMap[e.time := e];
      }
    }
    assert es[..|es|] == es;
  }

  /** The result loop of `get_all_slots`: one entry per time, booked when the time is in the map. */
  method AnnotateTimes(times: seq<int>, bookedMap: map<int, Encounter>) returns (result: seq<SlotEntry>)
    ensures |result| == |times|
    ensures forall i | 0 <= i < |times| :: result[i] == Annotate(times[i], bookedMap)
  {
    result := [];
    for i := 0 to |times|
      invariant |result| == i
      invariant forall k | 0 <= k < i :: result[k] == Annotate(times[k], bookedMap)
    {
      var t := times[i];
      if t in bookedMap {
        var enc := bookedMap[t];
        result := result + [Booked(t, enc.id, enc.patient)];
      } else {
        result := result + [Available(t)];
      }
    }
  }

  /** `get_all_slots`. */
  method GetAllSlots(q: Query, rs: seq<RecurringSchedule>, os: seq<OccasionalSchedule>,
                     ws: seq<ClosedWindow>, es: seq<Encounter>) returns (result: seq<SlotEntry>)
    requires Ready(q, rs, os, ws)
    ensures result == AllSlots(q, rs, os, ws, es)
  {
    var raw := CollectCandidates(q, rs, os);
    if |raw| == 0 {
      assert Surviving(q, rs, os, ws) == map[];
      return [];
    }
    raw := RemoveClosures(raw, ws, q);
    if |raw| == 0 {
      return [];
    }
    var bookedMap := BuildBookedMap(es, q);
    var times := SortedTimes(raw.Keys);
    result := AnnotateTimes(times, bookedMap);
  }
}

=== FILE: views.dfy ===
/**
 * The request handlers that drive the slot engine: the encounter status
 * actions, the booking page (week selection, the booking decision, the grid
 * of bookable slots) and the staff dashboard.
 *
 * The encounter table is the `encounters` field of an `EncounterStore`; the
 * handlers that write to it (a status action, a booking) are its methods and
 * are proved against the pure functions `StatusChange` and `BookingDecision`,
 * about which the lemmas below say what the handlers promise.
 */
module Views {
  import opened Common
  import opened Calendar
  import opened Models
  import opened Slots

  // ===========================================================================
  // Status actions

  datatype Action = MarkArrived | Start | Complete | Cancel

  /** 404 (no such encounter in a state the action accepts) or 403. */
  datatype Refusal = NotFound | PermissionDenied

  /**
   * The status an action moves an encounter to, or why it refuses. The first
   * three actions look the encounter up together with the status they accept,
   * so a wrong status is a 404; cancelling looks it up by id alone and
   * refuses a wrong status with a 403.
   */
  function Transition(a: Action, s: Status): (r: Result<Status, Refusal>)
    ensures r.Ok? ==> IsActive(s) && r.value != s
    ensures r.Err? && a != Cancel ==> r.error == NotFound
    ensures r.Err? && a == Cancel ==> r.error == PermissionDenied
  {
    match a
    case MarkArrived => if s == Scheduled then Ok(Arrived) else Err(NotFound)
    case Start => if s == Arrived then Ok(InProgress) else Err(NotFound)
    case Complete => if s == InProgress then Ok(Completed) else Err(NotFound)
    case Cancel => if s == Scheduled || s == Arrived then Ok(Cancelled) else Err(PermissionDenied)
  }

  /** How far along the visit an encounter is; the two end states share the top rank. */
  function Rank(s: Status): nat {
    match s
    case Scheduled => 0
    case Confirmed => 0
    case Arrived => 1
    case InProgress => 2
    case Completed => 3
    case Cancelled => 3
  }

  predicate Terminal(s: Status) {
    s == Completed || s == Cancelled
  }

  /**
   * Every accepted action moves the visit strictly forward, only the
   * cancel action ends in Cancelled, and only cancelling makes an encounter
   * stop holding its slot.
   */
  lemma TransitionsAdvance(a: Action, s: Status)
    ensures Transition(a, s).Ok? ==> Rank(Transition(a, s).value) > Rank(s)
    ensures Transition(a, s).Ok? ==> (Transition(a, s).value == Cancelled <==> a == Cancel)
    ensures Transition(a, s).Ok? ==> (IsActive(Transition(a, s).value) <==> a != Cancel)
    ensures Transition(a, s).Ok? ==> IsActive(s)
  {
  }

  /** Completed and Cancelled admit no action, and neither does Confirmed. */
  lemma TerminalStatesAreFinal(a: Action, s: Status)
    ensures Terminal(s) || s == Confirmed ==> Transition(a, s).Err?
    ensures Transition(a, s).Err? ==> (Transition(a, s).error == PermissionDenied <==> a == Cancel)
  {
  }

  /** The happy path of a visit: arrive, start, complete. */
  lemma VisitLifecycle()
    ensures Transition(MarkArrived, Scheduled) == Ok(Arrived)
    ensures Transition(Start, Arrived) == Ok(InProgress)
    ensures Transition(Complete, InProgress) == Ok(Completed)
    ensures Transition(Cancel, Arrived) == Ok(Cancelled)
  {
  }

  predicate UniqueIds(es: seq<Encounter>) {
    forall i, j | 0 <= i < |es| && 0 <= j < |es| && es[i].id == es[j].id :: i == j
  }

  /** `get_object_or_404(Encounter, pk=pk, clinic=clinic)`: the position of that row, if any. */
  function FindEncounter(es: seq<Encounter>, pk: nat, clinic: nat): (r: Option<nat>)
    ensures r.Some? ==> r.value < |es| && es[r.value].id == pk && es[r.value].clinic == clinic
    ensures r.None? ==> forall i | 0 <= i < |es| :: !(es[i].id == pk && es[i].clinic == clinic)
  {
    if es == [] then None
    else if es[|es| - 1].id == pk && es[|es| - 1].clinic == clinic then Some(|es| - 1)
    else FindEncounter(es[..|es| - 1], pk, clinic)
  }

  /** The encounter table after an action on encounter `pk` from `clinic`, or the refusal. */
  function StatusChange(es: seq<Encounter>, a: Action, pk: nat, clinic: nat): (r: Result<seq<Encounter>, Refusal>)
    ensures r.Ok? ==> |r.value| == |es| && forall j | 0 <= j < |es| :: r.value[j].(status := es[j].status) == es[j]
  {
    match FindEncounter(es, pk, clinic)
    case None => Err(NotFound)
    case Some(i) =>
      match Transition(a, es[i].status)
      case Err(refusal) => Err(refusal)
      case Ok(next) => Ok(es[i := es[i].(status := next)])
  }

  /**
   * An action changes the status of the one encounter with that id at that
   * clinic and nothing else; it is refused exactly when there is no such
   * encounter or the transition table refuses its status.
   */
  lemma StatusChangeMeaning(es: seq<Encounter>, a: Action, pk: nat, clinic: nat)
    requires UniqueIds(es)
    ensures var r := StatusChange(es, a, pk, clinic);
      && (r.Ok? <==> exists i :: 0 <= i < |es| && es[i].id == pk && es[i].clinic == clinic && Transition(a, es[i].status).Ok?)
      && (r.Ok? ==> |r.value| == |es| && UniqueIds(r.value))
      && (r.Ok? ==> forall i | 0 <= i < |es| ::
            if es[i].id == pk then r.value[i] == es[i].(status := Transition(a, es[i].status).value)
            else r.value[i] == es[i])
  {
    var r := StatusChange(es, a, pk, clinic);
    var found := FindEncounter(es, pk, clinic);
    if found.Some? {
      var k := found.value;
      if r.Ok? {
        forall i | 0 <= i < |es|
          ensures if es[i].id == pk then r.value[i] == es[i].(status := Transition(a, es[i].status).value)
                  else r.value[i] == es[i]
        {
          if es[i].id == pk {
            assert i == k;
          }
        }
      } else {
        forall i | 0 <= i < |es| && es[i].id == pk && es[i].clinic == clinic
          ensures Transition(a, es[i].status).Err?
        {
          assert i == k;
        }
      }
    }
  }

  /** The set of start times booked for `q` after an action is the old one, less at most the cancelled start. */
  lemma StatusChangeBookings(es: seq<Encounter>, a: Action, pk: nat, clinic: nat, q: Query)
    requires UniqueIds(es)
    requires StatusChange(es, a, pk, clinic).Ok?
    ensures var es' := StatusChange(es, a, pk, clinic).value;
      && (a != Cancel ==> BookedTimes(es', q) == BookedTimes(es, q))
      && (a == Cancel ==> BookedTimes(es', q) <= BookedTimes(es, q))
  {
    var k := FindEncounter(es, pk, clinic).value;
    var es' := StatusChange(es, a, pk, clinic).value;
    var next := Transition(a, es[k].status).value;
    TransitionsAdvance(a, es[k].status);
    assert es' == es[k := es[k].(status := next)];
    forall t | t in BookedTimes(es', q)
      ensures t in BookedTimes(es, q)
    {
      var e :| e in es' && Occupies(e, q) && e.time == t;
      var i :| 0 <= i < |es'| && es'[i] == e;
      if i == k {
        assert es[k] in es && Occupies(es[k], q) && es[k].time == t;
      } else {
        assert es[i] in es;
      }
    }
    if a != Cancel {
      forall t | t in BookedTimes(es, q)
        ensures t in BookedTimes(es', q)
      {
        var e :| e in es && Occupies(e, q) && e.time == t;
        var i :| 0 <= i < |es| && es[i] == e;
        assert es'[i] in es' && Occupies(es'[i], q) && es'[i].time == t;
      }
    }
  }

  /**
   * Status actions other than cancelling leave every day's available slots
   * as they were; cancelling frees the cancelled encounter's start time when
   * no other active encounter holds it.
   */
  lemma StatusChangeAvailability(es: seq<Encounter>, a: Action, pk: nat, clinic: nat,
                                 q: Query, rs: seq<RecurringSchedule>, os: seq<OccasionalSchedule>,
                                 ws: seq<ClosedWindow>)
    requires UniqueIds(es) && Ready(q, rs, os, ws)
    requires StatusChange(es, a, pk, clinic).Ok?
    ensures var es' := StatusChange(es, a, pk, clinic).value;
      a != Cancel ==> AvailableSlots(q, rs, os, ws, es') == AvailableSlots(q, rs, os, ws, es)
    ensures var es' := StatusChange(es, a, pk, clinic).value;
      var k := FindEncounter(es, pk, clinic).value;
      && (forall t | t in AvailableSlots(q, rs, os, ws, es) :: t in AvailableSlots(q, rs, os, ws, es'))
      && (a == Cancel && es[k].time in Surviving(q, rs, os, ws) && Occupies(es[k], q)
          && (forall j | 0 <= j < |es| && j != k :: !(Occupies(es[j], q) && es[j].time == es[k].time))
          ==> es[k].time in AvailableSlots(q, rs, os, ws, es'))
  {
    var es' := StatusChange(es, a, pk, clinic).value;
    var k := FindEncounter(es, pk, clinic).value;
    StatusChangeBookings(es, a, pk, clinic, q);
    forall t
      ensures t in AvailableSlots(q, rs, os, ws, es) <==> t in Surviving(q, rs, os, ws) && t !in BookedTimes(es, q)
      ensures t in AvailableSlots(q, rs, os, ws, es') <==> t in Surviving(q, rs, os, ws) && t !in BookedTimes(es', q)
    {
      AvailableSlotsMeaning(q, rs, os, ws, es, t);
      AvailableSlotsMeaning(q, rs, os, ws, es', t);
    }
    if a == Cancel && Occupies(es[k], q)
       && (forall j | 0 <= j < |es| && j != k :: !(Occupies(es[j], q) && es[j].time == es[k].time)) {
      var t := es[k].time;
      forall e | e in es' && Occupies(e, q)
        ensures e.time != t
      {
        var i :| 0 <= i < |es'| && es'[i] == e;
        if i != k {
          assert es[i] == e;
        }
      }
    }
  }

  // ===========================================================================
  // Booking

  /**
   * Why a booking is refused: its moment is not in the future, or its start
   * is not among the day's available slots (already booked, closed, or never
   * offered by any template). Both show the same message ("This slot is no
   * longer available.").
   */
  datatype BookingError = SlotInPast | SlotUnavailable

  /** The local moment `date` `time` is not later than the moment `nowDate` `nowTime`. */
  predicate AtOrBefore(date: int, time: int, nowDate: int, nowTime: int) {
    date < nowDate || (date == nowDate && time <= nowTime)
  }

  /** Whether a booking of start `t` for `q` made at `now` goes through, and if not, why. */
  function BookingDecision(q: Query, rs: seq<RecurringSchedule>, os: seq<OccasionalSchedule>,
                           ws: seq<ClosedWindow>, es: seq<Encounter>,
                           t: int, nowDate: int, nowTime: int): (r: Option<BookingError>)
    requires Ready(q, rs, os, ws)
    ensures r == Some(SlotInPast) <==> AtOrBefore(q.date, t, nowDate, nowTime)
    ensures r == None <==>
      && !AtOrBefore(q.date, t, nowDate, nowTime)
      && t in Surviving(q, rs, os, ws)
      && t !in BookedTimes(es, q)
  {
    AvailableSlotsMeaning(q, rs, os, ws, es, t);
    if AtOrBefore(q.date, t, nowDate, nowTime) then Some(SlotInPast)
    else if t !in AvailableSlots(q, rs, os, ws, es) then Some(SlotUnavailable)
    else None
  }

  /** The encounter a successful booking creates. */
  function BookedEncounter(id: nat, patient: nat, q: Query, t: int): (e: Encounter)
    ensures Occupies(e, q) && e.time == t && e.id == id && e.patient == patient
  {
    NewEncounter(id, patient, q.doctor, q.clinic, q.date, t)
  }

  lemma BookedTimesAppend(es: seq<Encounter>, e: Encounter, q: Query)
    requires Occupies(e, q)
    ensures BookedTimes(es + [e], q) == BookedTimes(es, q) + {e.time}
  {
    forall t | t in BookedTimes(es + [e], q)
      ensures t in BookedTimes(es, q) + {e.time}
    {
      var x :| x in es + [e] && Occupies(x, q) && x.time == t;
      if x != e {
        assert x in es;
      }
    }
    assert e in es + [e];
    forall t | t in BookedTimes(es, q)
      ensures t in BookedTimes(es + [e], q)
    {
      var x :| x in es && Occupies(x, q) && x.time == t;
      assert x in es + [e];
    }
  }

  /**
   * A booking that goes through takes exactly its start out of the day's
   * available list, shows up in the annotated list as booked for that
   * encounter and patient, and a second booking of the same start is refused.
   */
  lemma BookingRoundTrip(q: Query, rs: seq<RecurringSchedule>, os: seq<OccasionalSchedule>,
                         ws: seq<ClosedWindow>, es: seq<Encounter>,
                         t: int, nowDate: int, nowTime: int, id: nat, patient: nat)
    requires Ready(q, rs, os, ws)
    requires BookingDecision(q, rs, os, ws, es, t, nowDate, nowTime) == None
    ensures var es' := es + [BookedEncounter(id, patient, q, t)];
      && (forall u :: u in AvailableSlots(q, rs, os, ws, es') <==> u in AvailableSlots(q, rs, os, ws, es) && u != t)
      && Booked(t, id, patient) in AllSlots(q, rs, os, ws, es')
      && BookingDecision(q, rs, os, ws, es', t, nowDate, nowTime) == Some(SlotUnavailable)
  {
    var e := BookedEncounter(id, patient, q, t);
    var es' := es + [e];
    BookedTimesAppend(es, e, q);
    forall u
      ensures u in AvailableSlots(q, rs, os, ws, es') <==> u in AvailableSlots(q, rs, os, ws, es) && u != t
    {
      AvailableSlotsMeaning(q, rs, os, ws, es, u);
      AvailableSlotsMeaning(q, rs, os, ws, es', u);
    }
    assert es'[..|es'| - 1] == es;
    var booked := BookedMap(es', q);
    assert booked == BookedMap(es, q)[t := e];
    var times := SortedTimes(Surviving(q, rs, os, ws).Keys);
    assert t in times;
    var i :| 0 <= i < |times| && times[i] == t;
    var all := AllSlots(q, rs, os, ws, es');
    assert all[i] == Annotate(t, booked) == Booked(t, id, patient);
  }

  /** Booking in the past is refused whatever the schedules say. */
  lemma PastBookingRefused(q: Query, rs: seq<RecurringSchedule>, os: seq<OccasionalSchedule>,
                           ws: seq<ClosedWindow>, es: seq<Encounter>, t: int, nowDate: int, nowTime: int)
    requires Ready(q, rs, os, ws)
    ensures t <= nowTime ==> BookingDecision(q, rs, os, ws, es, t, q.date, nowTime) == Some(SlotInPast)
    ensures q.date < nowDate ==> BookingDecision(q, rs, os, ws, es, t, nowDate, nowTime) == Some(SlotInPast)
  {
  }

  // ===========================================================================
  // The encounter table

  /**
   * The stored tables the booking page and the status actions read and
   * write. `nextId` is the primary key the next created encounter receives.
   */
  class EncounterStore {
    var recurring: seq<RecurringSchedule>
    var occasional: seq<OccasionalSchedule>
    var closed: seq<ClosedWindow>
    var encounters: seq<Encounter>
    var nextId: nat

    /** Primary keys are distinct and below the next one to be handed out. */
    predicate Valid()
      reads this
    {
      UniqueIds(encounters) && forall i | 0 <= i < |encounters| :: encounters[i].id < nextId
    }

    constructor (rs: seq<RecurringSchedule>, os: seq<OccasionalSchedule>, ws: seq<ClosedWindow>)
      ensures Valid()
      ensures recurring == rs && occasional == os && closed == ws
      ensures encounters == [] && nextId == 1
    {
      recurring, occasional, closed := rs, os, ws;
      encounters, nextId := [], 1;
    }

    /** `encounter_mark_arrived`, `encounter_start`, `encounter_complete`, `encounter_cancel`. */
    method ChangeStatus(a: Action, pk: nat, clinic: nat) returns (refusal: Option<Refusal>)
      requires Valid()
      modifies this
      ensures Valid()
      ensures var r := StatusChange(old(encounters), a, pk, clinic);
        && (refusal.None? <==> r.Ok?)
        && (r.Ok? ==> encounters == r.value)
        && (r.Err? ==> encounters == old(encounters) && refusal == Some(r.error))
      ensures recurring == old(recurring) && occasional == old(occasional) && closed == old(closed)
      ensures nextId == old(nextId)
    {
      StatusChangeMeaning(encounters, a, pk, clinic);
      var found := FindEncounter(encounters, pk, clinic);
      if found.None? {
        return Some(NotFound);
      }
      var i := found.value;
      var next := Transition(a, encounters[i].status);
      if next.Err? {
        return Some(next.error);
      }
      encounters := encounters[i := encounters[i].(status := next.value)];
      refusal := None;
    }

    /** The POST branch of `encounter_create`: book start `t` for `q` at `now` for `patient`. */
    method Book(q: Query, t: int, patient: nat, nowDate: int, nowTime: int) returns (outcome: Result<nat, BookingError>)
      requires Valid() && Ready(q, recurring, occasional, closed)
      modifies this
      ensures Valid()
      ensures var d := BookingDecision(q, old(recurring), old(occasional), old(closed), old(encounters), t, nowDate, nowTime);
        && (d.None? ==> outcome == Ok(old(nextId)) && nextId == old(nextId) + 1
                        && encounters == old(encounters) + [BookedEncounter(old(nextId), patient, q, t)])
        && (d.Some? ==> outcome == Err(d.value) && nextId == old(nextId) && encounters == old(encounters))
      ensures recurring == old(recurring) && occasional == old(occasional) && closed == old(closed)
    {
      if AtOrBefore(q.date, t, nowDate, nowTime) {
        return Err(SlotInPast);
      }
      var available := GetAvailableSlots(q, recurring, occasional, closed, encounters);
      if t !in available {
        return Err(SlotUnavailable);
      }
      var e := NewEncounter(nextId, patient, q.doctor, q.clinic, q.date, t);
      encounters := encounters + [e];
      outcome := Ok(nextId);
      nextId := nextId + 1;
    }
  }

  // ===========================================================================
  // Week selection

  /** The Monday of the week holding `d`. */
  function WeekStart(d: int): (m: int)
    ensures Weekday(m) == 0 && m <= d < m + 7
  {
    var w := Weekday(d);
    assert (d + 6) == 7 * ((d + 6) / 7) + w;
    assert d - w + 6 == 7 * ((d + 6) / 7);
    d - w
  }

  /** A Monday is the start of the week of every day up to the next Monday. */
  lemma WeekStartUnique(m: int, d: int)
    requires Weekday(m) == 0 && m <= d < m + 7
    ensures WeekStart(d) == m
  {
    var s := WeekStart(d);
    SameWeekday(m, s);
    var k := (m - s) / 7;
    assert m - s == 7 * k;
  }

  /** The week shown by the booking page, its seven dates and its neighbours. */
  datatype WeekView = WeekView(start: int, dates: seq<int>, prevWeek: int, nextWeek: int)

  /** Date arithmetic left the range `date` can hold: `OverflowError`, answered as a server error. */
  datatype WeekError = DateOverflow

  /**
   * `?week=` snapped back to its Monday, or the current week when the
   * parameter is missing or does not parse (`None`). Building the seven
   * dates, then the previous link, then the next link fails as soon as one
   * of them falls outside the calendar.
   */
  function SelectWeek(requested: Option<int>, today: int): (r: Result<WeekView, WeekError>)
    requires InCalendar(today) && (requested.Some? ==> InCalendar(requested.value))
    ensures var m := WeekStart(requested.GetOr(today));
      r.Err? <==> !(InCalendar(m - 7) && InCalendar(m + 7))
    ensures r.Ok? ==> var v := r.value;
      && Weekday(v.start) == 0
      && v.start <= requested.GetOr(today) < v.start + 7
      && |v.dates| == 7
      && (forall i | 0 <= i < 7 :: v.dates[i] - v.start == i && Weekday(v.dates[i]) == i && InCalendar(v.dates[i]))
      && v.prevWeek == v.start - 7 && v.nextWeek == v.start + 7
      && InCalendar(v.prevWeek) && InCalendar(v.nextWeek)
  {
    var start := WeekStart(requested.GetOr(today));
    if !InCalendar(start + 6) then Err(DateOverflow)
    else if !InCalendar(start - 7) then Err(DateOverflow)
    else if !InCalendar(start + 7) then Err(DateOverflow)
    else
      var dates := seq(7, i => start + i);
      assert forall i | 0 <= i < 7 :: Weekday(dates[i]) == i by {
        forall i | 0 <= i < 7
          ensures Weekday(dates[i]) == i
        {
          assert (start + 6) % 7 == 0;
          assert start + i + 6 == (start + 6) + i;
        }
      }
      Ok(WeekView(start, dates, start - 7, start + 7))
  }

  /**
   * The page fails exactly for a requested date in the first week of year 1,
   * which has no previous week, or in 9999-12-27 .. 9999-12-31, whose week
   * runs past the calendar's end.
   */
  lemma WeekOverflowEdges(requested: int, today: int)
    requires InCalendar(requested) && InCalendar(today)
    ensures SelectWeek(Some(requested), today).Err? <==> requested < MinDate + 7 || requested > MaxDate - 5
  {
    var m := WeekStart(requested);
    SameWeekday(m, MinDate);
    SameWeekday(m, MaxDate - 4);
    if requested >= MinDate + 7 {
      var k := (m - MinDate) / 7;
      assert m - MinDate == 7 * k;
    }
    var k := (m - (MaxDate - 4)) / 7;
    assert m - (MaxDate - 4) == 7 * k;
  }

  /**
   * Following the previous/next links moves exactly one week, and asking for
   * any date shown gives the same page, whatever the day.
   */
  lemma WeekNavigation(requested: Option<int>, today: int, other: int)
    requires InCalendar(today) && InCalendar(other) && (requested.Some? ==> InCalendar(requested.value))
    requires SelectWeek(requested, today).Ok?
    ensures var v := SelectWeek(requested, today).value;
      && WeekStart(v.nextWeek) == v.start + 7
      && WeekStart(v.prevWeek) == v.start - 7
      && (forall i | 0 <= i < 7 :: SelectWeek(Some(v.dates[i]), other) == SelectWeek(requested, today))
  {
    var v := SelectWeek(requested, today).value;
    SameWeekday(v.start + 7, v.start);
    SameWeekday(v.start - 7, v.start);
    WeekStartUnique(v.start + 7, v.nextWeek);
    WeekStartUnique(v.start - 7, v.prevWeek);
    WeekStartUnique(v.start, requested.GetOr(today));
    forall i | 0 <= i < 7
      ensures SelectWeek(Some(v.dates[i]), other) == SelectWeek(requested, today)
    {
      WeekStartUnique(v.start, v.dates[i]);
    }
  }

  // ===========================================================================
  // The booking grid

  /** The entries strictly later than `nowTime`, in their order. */
  function FutureEntries(entries: seq<SlotEntry>, nowTime: int): (r: seq<SlotEntry>)
    ensures forall x :: x in r <==> x in entries && x.time > nowTime
  {
    if entries == [] then []
    else
      assert forall x :: x in entries <==> x == entries[0] || x in entries[1..];
      (if entries[0].time > nowTime then [entries[0]] else []) + FutureEntries(entries[1..], nowTime)
  }

  /** An entry earlier than every entry of an ascending list can go in front of it. */
  lemma PrependIncreasing(x: SlotEntry, tail: seq<SlotEntry>)
    requires StrictlyIncreasing(EntryTimes(tail))
    requires forall y | y in tail :: x.time < y.time
    ensures StrictlyIncreasing(EntryTimes([x] + tail))
  {
    var r := [x] + tail;
    forall i, j | 0 <= i < j < |r|
      ensures EntryTimes(r)[i] < EntryTimes(r)[j]
    {
      assert EntryTimes(r)[j] == EntryTimes(tail)[j - 1];
      if i > 0 {
        assert EntryTimes(r)[i] == EntryTimes(tail)[i - 1];
      } else {
        assert tail[j - 1] in tail;
      }
    }
  }

  /** Dropping the earlier entries keeps ascending times ascending. */
  lemma {:induction false} FutureEntriesIncreasing(entries: seq<SlotEntry>, nowTime: int)
    requires StrictlyIncreasing(EntryTimes(entries))
    ensures StrictlyIncreasing(EntryTimes(FutureEntries(entries, nowTime)))
  {
    if entries != [] {
      var rest := entries[1..];
      assert EntryTimes(rest) == EntryTimes(entries)[1..];
      FutureEntriesIncreasing(rest, nowTime);
      var tail := FutureEntries(rest, nowTime);
      if entries[0].time > nowTime {
        forall y | y in tail
          ensures entries[0].time < y.time
        {
          var k :| 0 <= k < |rest| && rest[k] == y;
          assert EntryTimes(entries)[k + 1] == y.time;
          assert EntryTimes(entries)[0] == entries[0].time;
        }
        PrependIncreasing(entries[0], tail);
        assert FutureEntries(entries, nowTime) == [entries[0]] + tail;
      } else {
        assert FutureEntries(entries, nowTime) == tail;
      }
    }
  }

  /**
   * One cell of the grid: nothing for a past day, the day's slots later than
   * now for today, every slot for a future day.
   */
  function DayCell(q: Query, rs: seq<RecurringSchedule>, os: seq<OccasionalSchedule>,
                   ws: seq<ClosedWindow>, es: seq<Encounter>, today: int, nowTime: int): (cell: seq<SlotEntry>)
    requires Ready(q, rs, os, ws)
    ensures q.date < today ==> cell == []
    ensures forall x :: x in cell <==>
      x in AllSlots(q, rs, os, ws, es) && (q.date > today || (q.date == today && x.time > nowTime))
  {
    if q.date < today then []
    else
      var all := AllSlots(q, rs, os, ws, es);
      if q.date == today then FutureEntries(all, nowTime) else all
  }

  /** A cell lists its starts in ascending order. */
  lemma DayCellOrdered(q: Query, rs: seq<RecurringSchedule>, os: seq<OccasionalSchedule>,
                       ws: seq<ClosedWindow>, es: seq<Encounter>, today: int, nowTime: int)
    requires Ready(q, rs, os, ws)
    ensures StrictlyIncreasing(EntryTimes(DayCell(q, rs, os, ws, es, today, nowTime)))
  {
    AllSlotsMeaning(q, rs, os, ws, es);
    if q.date == today {
      FutureEntriesIncreasing(AllSlots(q, rs, os, ws, es), nowTime);
    }
  }

  /** What a cell shows as available, a booking made now accepts. */
  lemma DayCellAccepted(q: Query, rs: seq<RecurringSchedule>, os: seq<OccasionalSchedule>,
                        ws: seq<ClosedWindow>, es: seq<Encounter>, today: int, nowTime: int)
    requires Ready(q, rs, os, ws)
    ensures forall t | Available(t) in DayCell(q, rs, os, ws, es, today, nowTime) ::
      BookingDecision(q, rs, os, ws, es, t, today, nowTime) == None
  {
    var all := AllSlots(q, rs, os, ws, es);
    AllSlotsAgreeWithAvailable(q, rs, os, ws, es);
    forall t | Available(t) in DayCell(q, rs, os, ws, es, today, nowTime)
      ensures BookingDecision(q, rs, os, ws, es, t, today, nowTime) == None
    {
      assert t in AvailableTimes(all);
      AvailableSlotsMeaning(q, rs, os, ws, es, t);
    }
  }

  /** A cell marks booked only taken starts, and shows every free start later than now. */
  lemma DayCellComplete(q: Query, rs: seq<RecurringSchedule>, os: seq<OccasionalSchedule>,
                        ws: seq<ClosedWindow>, es: seq<Encounter>, today: int, nowTime: int)
    requires Ready(q, rs, os, ws)
    ensures var cell := DayCell(q, rs, os, ws, es, today, nowTime);
      && (forall x | x in cell && x.Booked? :: x.time in BookedTimes(es, q))
      && (forall t | t in AvailableSlots(q, rs, os, ws, es) && !AtOrBefore(q.date, t, today, nowTime) ::
            Available(t) in cell)
  {
    var all := AllSlots(q, rs, os, ws, es);
    AllSlotsMeaning(q, rs, os, ws, es);
    AllSlotsAgreeWithAvailable(q, rs, os, ws, es);
    forall x | x in DayCell(q, rs, os, ws, es, today, nowTime) && x.Booked?
      ensures x.time in BookedTimes(es, q)
    {
      var i :| 0 <= i < |all| && all[i] == x;
    }
    forall t | t in AvailableSlots(q, rs, os, ws, es) && !AtOrBefore(q.date, t, today, nowTime)
      ensures Available(t) in DayCell(q, rs, os, ws, es, today, nowTime)
    {
      assert t in AvailableTimes(all);
    }
  }

  /** One cell of the grid, as `encounter_create` fills it. */
  method BuildDayCell(q: Query, rs: seq<RecurringSchedule>, os: seq<OccasionalSchedule>,
                      ws: seq<ClosedWindow>, es: seq<Encounter>, today: int, nowTime: int)
    returns (slots: seq<SlotEntry>)
    requires Ready(q, rs, os, ws)
    ensures slots == DayCell(q, rs, os, ws, es, today, nowTime)
  {
    slots := [];
    if q.date >= today {
      slots := GetAllSlots(q, rs, os, ws, es);
      if q.date == today {
        slots := FutureEntries(slots, nowTime);
      }
    }
  }

  /** `row` holds one `DayCell` of `doctor` per date. */
  predicate IsGridRow(row: seq<seq<SlotEntry>>, doctor: nat, clinic: nat, dates: seq<int>,
                      rs: seq<RecurringSchedule>, os: seq<OccasionalSchedule>,
                      ws: seq<ClosedWindow>, es: seq<Encounter>, today: int, nowTime: int)
  {
    && |row| == |dates|
    && forall j | 0 <= j < |dates| ::
         Ready(Query(doctor, clinic, dates[j]), rs, os, ws)
         && row[j] == DayCell(Query(doctor, clinic, dates[j]), rs, os, ws, es, today, nowTime)
  }

  /** One doctor's row of the grid: a cell per date. */
  method BuildGridRow(doctor: nat, clinic: nat, dates: seq<int>,
                      rs: seq<RecurringSchedule>, os: seq<OccasionalSchedule>,
                      ws: seq<ClosedWindow>, es: seq<Encounter>, today: int, nowTime: int)
    returns (row: seq<seq<SlotEntry>>)
    requires forall j | 0 <= j < |dates| :: Ready(Query(doctor, clinic, dates[j]), rs, os, ws)
    ensures IsGridRow(row, doctor, clinic, dates, rs, os, ws, es, today, nowTime)
  {
    row := [];
    for j := 0 to |dates|
      invariant |row| == j
      invariant forall l | 0 <= l < j :: row[l] == DayCell(Query(doctor, clinic, dates[l]), rs, os, ws, es, today, nowTime)
    {
      var slots := BuildDayCell(Query(doctor, clinic, dates[j]), rs, os, ws, es, today, nowTime);
      row := row + [slots];
    }
  }

  /** `grid` holds one row per doctor, as `IsGridRow` says. */
  predicate IsGrid(grid: seq<seq<seq<SlotEntry>>>, doctors: seq<nat>, clinic: nat, dates: seq<int>,
                   rs: seq<RecurringSchedule>, os: seq<OccasionalSchedule>,
                   ws: seq<ClosedWindow>, es: seq<Encounter>, today: int, nowTime: int)
  {
    && |grid| == |doctors|
    && forall i | 0 <= i < |doctors| :: IsGridRow(grid[i], doctors[i], clinic, dates, rs, os, ws, es, today, nowTime)
  }

  /** Proof step for `BuildWeekGrid`: a grid of the earlier doctors plus one more doctor's row. */
  lemma IsGridSnoc(grid: seq<seq<seq<SlotEntry>>>, doctors: seq<nat>, row: seq<seq<SlotEntry>>, doctor: nat,
                   clinic: nat, dates: seq<int>, rs: seq<RecurringSchedule>, os: seq<OccasionalSchedule>,
                   ws: seq<ClosedWindow>, es: seq<Encounter>, today: int, nowTime: int)
    requires IsGrid(grid, doctors, clinic, dates, rs, os, ws, es, today, nowTime)
    requires IsGridRow(row, doctor, clinic, dates, rs, os, ws, es, today, nowTime)
    ensures IsGrid(grid + [row], doctors + [doctor], clinic, dates, rs, os, ws, es, today, nowTime)
  {
    var g, ds := grid + [row], doctors + [doctor];
    forall i | 0 <= i < |ds|
      ensures IsGridRow(g[i], ds[i], clinic, dates, rs, os, ws, es, today, nowTime)
    {
      if i < |grid| {
        assert g[i] == grid[i] && ds[i] == doctors[i];
      }
    }
  }

  /** The grid of `encounter_create`: for each doctor, one cell per date. */
  method BuildWeekGrid(doctors: seq<nat>, clinic: nat, dates: seq<int>,
                       rs: seq<RecurringSchedule>, os: seq<OccasionalSchedule>,
                       ws: seq<ClosedWindow>, es: seq<Encounter>, today: int, nowTime: int)
    returns (grid: seq<seq<seq<SlotEntry>>>)
    requires forall i, j | 0 <= i < |doctors| && 0 <= j < |dates| :: Ready(Query(doctors[i], clinic, dates[j]), rs, os, ws)
    ensures IsGrid(grid, doctors, clinic, dates, rs, os, ws, es, today, nowTime)
  {
    grid := [];
    for i := 0 to |doctors|
      invariant IsGrid(grid, doctors[..i], clinic, dates, rs, os, ws, es, today, nowTime)
    {
      var row := BuildGridRow(doctors[i], clinic, dates, rs, os, ws, es, today, nowTime);
      IsGridSnoc(grid, doctors[..i], row, doctors[i], clinic, dates, rs, os, ws, es, today, nowTime);
      assert doctors[..i] + [doctors[i]] == doctors[..i + 1];
      grid := grid + [row];
    }
    assert doctors[..|doctors|] == doctors;
  }

  // ===========================================================================
  // Dashboard

  /** The dashboard's rows: today's encounters at the clinic, a doctor's own only when one is given. */
  function TodaysEncounters(es: seq<Encounter>, today: int, clinic: nat, onlyDoctor: Option<nat>): (r: seq<Encounter>)
    ensures forall e :: e in r <==>
      e in es && e.date == today && e.clinic == clinic && (onlyDoctor.Some? ==> e.doctor == onlyDoctor.value)
    ensures multiset(r) <= multiset(es)
  {
    if es == [] then []
    else
      var init, e := es[..|es| - 1], es[|es| - 1];
      assert es == init + [e];
      var keep := e.date == today && e.clinic == clinic && (onlyDoctor.Some? ==> e.doctor == onlyDoctor.value);
      TodaysEncounters(init, today, clinic, onlyDoctor) + (if keep then [e] else [])
  }

  /** The rows whose status is one of `statuses`, in their order. */
  function WithStatusIn(es: seq<Encounter>, statuses: set<Status>): (r: seq<Encounter>)
    ensures forall e :: e in r <==> e in es && e.status in statuses
  {
    if es == [] then []
    else
      var init, e := es[..|es| - 1], es[|es| - 1];
      assert es == init + [e];
      WithStatusIn(init, statuses) + (if e.status in statuses then [e] else [])
  }

  /** Filtering by two disjoint status sets splits the filter by their union. */
  lemma {:induction false} WithStatusInSplit(es: seq<Encounter>, a: set<Status>, b: set<Status>)
    requires a !! b
    ensures multiset(WithStatusIn(es, a)) + multiset(WithStatusIn(es, b)) == multiset(WithStatusIn(es, a + b))
  {
    if es != [] {
      var init := es[..|es| - 1];
      WithStatusInSplit(init, a, b);
    }
  }

  /** Filtering by every status keeps every row. */
  lemma {:induction false} WithStatusInAll(es: seq<Encounter>, all: set<Status>)
    requires forall s: Status :: s in all
    ensures WithStatusIn(es, all) == es
  {
    if es != [] {
      var init := es[..|es| - 1];
      WithStatusInAll(init, all);
      assert es == init + [es[|es| - 1]];
    }
  }

  /** Rows in the order of their scheduled moment. */
  predicate InScheduleOrder(es: seq<Encounter>) {
    forall i, j | 0 <= i < j < |es| :: !AtOrBefore(es[j].date, es[j].time, es[i].date, es[i].time) || (es[i].date == es[j].date && es[i].time == es[j].time)
  }

  lemma {:induction false} WithStatusInOrdered(es: seq<Encounter>, statuses: set<Status>)
    requires InScheduleOrder(es)
    ensures InScheduleOrder(WithStatusIn(es, statuses))
  {
    if es != [] {
      var init, e := es[..|es| - 1], es[|es| - 1];
      assert InScheduleOrder(init) by {
        forall i, j | 0 <= i < j < |init|
          ensures !AtOrBefore(init[j].date, init[j].time, init[i].date, init[i].time)
                  || (init[i].date == init[j].date && init[i].time == init[j].time)
        {
          assert init[i] == es[i] && init[j] == es[j];
        }
      }
      WithStatusInOrdered(init, statuses);
      var head := WithStatusIn(init, statuses);
      if e.status in statuses {
        var r := head + [e];
        forall i, j | 0 <= i < j < |r|
          ensures !AtOrBefore(r[j].date, r[j].time, r[i].date, r[i].time)
                  || (r[i].date == r[j].date && r[i].time == r[j].time)
        {
          if j == |r| - 1 {
            assert r[i] in head;
            var k :| 0 <= k < |init| && init[k] == r[i];
            assert es[k] == r[i] && es[|es| - 1] == e;
          }
        }
      }
    }
  }

  datatype DashboardView = DashboardView(
    inProgress: seq<Encounter>, waiting: seq<Encounter>, upcoming: seq<Encounter>, done: seq<Encounter>)

  /** The four columns of `dashboard`. */
  function Dashboard(es: seq<Encounter>, today: int, clinic: nat, onlyDoctor: Option<nat>): (v: DashboardView)
    ensures forall e | e in v.inProgress + v.waiting + v.upcoming + v.done ::
      e in es && e.date == today && e.clinic == clinic && (onlyDoctor.Some? ==> e.doctor == onlyDoctor.value)
    ensures forall e | e in v.inProgress :: e.status == InProgress
    ensures forall e | e in v.waiting :: e.status == Arrived
    ensures forall e | e in v.upcoming :: e.status == Scheduled || e.status == Confirmed
    ensures forall e | e in v.done :: e.status == Completed || e.status == Cancelled
  {
    var rows := TodaysEncounters(es, today, clinic, onlyDoctor);
    DashboardView(
      WithStatusIn(rows, {InProgress}),
      WithStatusIn(rows, {Arrived}),
      WithStatusIn(rows, {Scheduled, Confirmed}),
      WithStatusIn(rows, {Completed, Cancelled}))
  }

  /** The four status columns split any list of rows: each row lands in exactly one, once. */
  lemma StatusColumnsPartition(rows: seq<Encounter>)
    ensures multiset(WithStatusIn(rows, {InProgress}) + WithStatusIn(rows, {Arrived})
                     + WithStatusIn(rows, {Scheduled, Confirmed}) + WithStatusIn(rows, {Completed, Cancelled}))
         == multiset(rows)
  {
    var a, b, c, d := {InProgress}, {Arrived}, {Scheduled, Confirmed}, {Completed, Cancelled};
    var ab, abc, all := a + b, a + b + c, a + b + c + d;
    WithStatusInSplit(rows, a, b);
    WithStatusInSplit(rows, ab, c);
    WithStatusInSplit(rows, abc, d);
    forall s: Status
      ensures s in all
    {
      match s
      case Scheduled =>
      case Confirmed =>
      case Arrived =>
      case InProgress =>
      case Completed =>
      case Cancelled =>
    }
    WithStatusInAll(rows, all);
  }

  /** Every one of the day's rows lands in exactly one column, once, by its status. */
  lemma DashboardPartition(es: seq<Encounter>, today: int, clinic: nat, onlyDoctor: Option<nat>)
    ensures var v, rows := Dashboard(es, today, clinic, onlyDoctor), TodaysEncounters(es, today, clinic, onlyDoctor);
      && multiset(v.inProgress + v.waiting + v.upcoming + v.done) == multiset(rows)
      && (forall e | e in v.inProgress :: e.status == InProgress)
      && (forall e | e in v.waiting :: e.status == Arrived)
      && (forall e | e in v.upcoming :: e.status == Scheduled || e.status == Confirmed)
      && (forall e | e in v.done :: Terminal(e.status))
  {
    StatusColumnsPartition(TodaysEncounters(es, today, clinic, onlyDoctor));
  }

  /** A column keeps the day's rows in schedule order. */
  lemma DashboardOrder(es: seq<Encounter>, today: int, clinic: nat, onlyDoctor: Option<nat>)
    requires InScheduleOrder(TodaysEncounters(es, today, clinic, onlyDoctor))
    ensures var v := Dashboard(es, today, clinic, onlyDoctor);
      InScheduleOrder(v.inProgress) && InScheduleOrder(v.waiting) && InScheduleOrder(v.upcoming) && InScheduleOrder(v.done)
  {
    var rows := TodaysEncounters(es, today, clinic, onlyDoctor);
    WithStatusInOrdered(rows, {InProgress});
    WithStatusInOrdered(rows, {Arrived});
    WithStatusInOrdered(rows, {Scheduled, Confirmed});
    WithStatusInOrdered(rows, {Completed, Cancelled});
  }
}
